=== FILE: README.md ===
# Looker custom visualizations — a Dafny model of the drawing engines

Three Looker custom visualization plugins each draw one SVG chart per
`updateAsync` call:

- a single-value semicircle gauge (`radial_gauge.js`);
- a radar (spider) chart for one item (`gauge.js`);
- a two-dimensional heatmap (`heatmap.js`).

Each call reads the query response, either rejects it with a message or
computes a scene, and hands the scene to the DOM. This project models the
part of each call that computes, as pure Dafny functions, and proves what
the code promises about it. It has one module per engine, plus shared
definitions:

- `Common`: JavaScript numbers with an explicit NaN, the outcome of one call,
  the measure-cell reading shared by the gauge and the radar, and the
  `Math` functions the engines use.
- `RadialGauge`:
  - the value is clamped to the configured range and mapped to an angle in
    [−π, 0];
  - angles are normalised into [0, 2π) with JavaScript's truncating `%`;
  - the large-arc flag is derived and the annulus path assembled;
  - the primitives come in a fixed order: background arc, fill arc,
    pointer, value label, then the optional min/max labels;
  - the gauge sits 25 px below the title baseline.
- `Radar`:
  - each axis is named by the first non-empty of short label, label and
    name;
  - the domain maximum is the configured one, or 1.1 × the largest value
    with a fallback of 1;
  - values are placed on a linear radial scale;
  - rings and tick labels are evenly spaced;
  - axes start at the top and go clockwise;
  - text anchor and baseline are chosen with a 0.001 tolerance;
  - primitives come in the order rings, per-axis blocks, polygon, dots.
- `HeatmapData`, `HeatmapColor`, `Heatmap`:
  - categories are kept distinct, in first-occurrence order;
  - cells are looked up in an `x|y` table, where the last row wins and NaN
    is skipped;
  - the value domain falls back to [0, 1];
  - hex colours are decoded through `parseInt` with 32-bit `>>`/`& 255`
    byte extraction;
  - colours are interpolated in RGB and rounded, over two or three stops;
  - cells are square, sized from the width, and painted row by row, with
    optional value labels;
  - axis labels follow the 45° rotation rule.

Every engine runs its query checks in a fixed order and shows the message
of the first one that fails. Its `Validate` returns that check, specified
through a rank and a per-check failure predicate, and its `Message` holds
the exact texts.

Conventions:

- `Num = Option<real>`: `None` is JavaScript's `NaN`, and NaN propagates
  through every arithmetic step that can see one.
- `Math.PI` is the real constant `Pi`.
- A measure cell missing from a row reads as 0. A present cell whose text
  does not parse reads as NaN. Both follow `parseFloat(cell ? cell.value : 0)`.
- Sines and cosines are never evaluated. Points are kept in polar form
  (radius and angle around the chart centre). The radar's anchor and
  baseline choice takes the `cos`/`sin` pair as a parameter (`Trig`).
- Widths and heights of the host element are parameters.
- `Render.Failed(message)` is the error container shown instead of a chart.

## Model

| member | source | states |
|---|---|---|
| Common.Trunc | radial_gauge.js:261 | the integer part toward zero that JavaScript's `%` subtracts: its distance to x is below 1 and it never has the opposite sign |
| Common.Round | heatmap.js:256-258 | `Math.round`: the nearest integer, halves rounded up (`x − ½ < n ≤ x + ½`) |
| RadialGauge.Validate | radial_gauge.js:197-216 | the result is the first failing check in source order (no fields, no rows, more than one row, not exactly one measure); no error exactly when there is one measure and one row |
| RadialGauge.Clamp | radial_gauge.js:248 | `max(min, min(max, v))`: inside [min, max] when min ≤ max; unchanged inside the range; the nearer bound outside it; always min when min > max; NaN stays NaN |
| RadialGauge.AngleEndpoints | radial_gauge.js:251-255 | the minimum maps to −π (left end) and the maximum to 0 (right end) |
| RadialGauge.AngleStrictlyIncreasing | radial_gauge.js:251-255 | for a proper range, a larger value points further clockwise |
| RadialGauge.AngleInHalfCircle | radial_gauge.js:251-255 | every in-range value maps into the upper half circle [−π, 0] |
| RadialGauge.FillAngle | radial_gauge.js:248-255 | the fill angle of the clamped value: in [−π, 0] for a proper range, the linear angle inside it, 0 for values at or above the maximum and −π at or below the minimum; NaN for an empty range (0/0) or a NaN value; −π when min > max |
| RadialGauge.FillAngleExample | radial_gauge.js:251-255 | 75 on 0..100 fills to −π/4 |
| RadialGauge.NormalizeAngle | radial_gauge.js:260-263 | the result lies in [0, 2π) and differs from the input by whole turns; angles already in range are kept and (−2π, 0) gains one turn |
| RadialGauge.SweepAngle | radial_gauge.js:271-272 | the sweep between two normalised angles is non-negative and below one turn, and equals their difference or the difference plus 2π; it is NaN exactly when the end angle is NaN |
| RadialGauge.ArcBetween | radial_gauge.js:258-301 | the path is a closed annulus sector: the outer arc from start to end, the inner arc back from end to start, with opposite sweep flags and the shared large-arc flag |
| RadialGauge.ArcFromLeftEnd | radial_gauge.js:265-274 | an arc from −π to any angle in [−π, 0] sweeps `end + π` ≤ π, so its large-arc flag is 0 |
| RadialGauge.GaugeScene | radial_gauge.js:304-402 | four primitives, or six with min/max labels, in paint order background, fill, pointer, value label, min label, max label |
| RadialGauge.GaugeArcs | radial_gauge.js:304-327 | the background spans the whole half circle; background and fill both start at the left end and are minor arcs; the fill ends where the pointer points |
| RadialGauge.GaugeGeometry | radial_gauge.js:225-400 | the radius is 65% of half the smaller side and so fits the box; the gauge is centred horizontally with the arc top 25 px below the 30 px title baseline; background and fill are closed annulus sectors between `radius − thickness` and the radius; the pointer points at the fill angle, reaches `radius − thickness − 5` and is 8 px wide; the value label shows the clamped value 0.4 radius below the centre; the min/max labels show the range ends one radius either side of the centre, 10 px plus half the font size below it |
| RadialGauge.SeventyFiveOfHundred | radial_gauge.js:314-365 | value 75 on 0..100: pointer and fill end at −π/4 (drawn at 7π/4) and the value label shows 75 |
| RadialGauge.Update | radial_gauge.js:197-220 | the error message is shown exactly when a check fails; otherwise the scene for the first row's first measure |
| RadialGauge.MissingMeasureReadsZero | radial_gauge.js:218-220 | a row without a cell for the measure shows 0, clamped into the range; with a range starting at 0 the pointer rests at the left end |
| Radar.Validate | gauge.js:203-222 | the first failing check in source order (no dimension, no measure, no rows, more than one row); no error exactly when there is at least one dimension, at least one measure and one row |
| Radar.AxisLabel | gauge.js:232 | the short label when it is non-empty; otherwise the label when that is non-empty; otherwise the name |
| Radar.RadarData | gauge.js:229-235 | one data point per measure, in measure order, with that measure's axis name and cell value |
| Radar.RunningMax | gauge.js:263-266 | the running maximum bounds every non-NaN value and the seed, and equals the seed or one of the values |
| Radar.AutoMax | gauge.js:262-270 | the automatic maximum is positive and ≥ 1.1 × every value; it is either 1 (no positive value) or 1.1 × the largest value |
| Radar.AutoMaxExample | gauge.js:262-270 | values 10, 20, 5, 15 give the maximum 22 |
| Radar.ResolveMax | gauge.js:261-270 | a configured maximum is used as is; otherwise exactly the automatic maximum `AutoMax` of the values, which is positive; the maximum is 0 only when configured as 0 |
| Radar.ScaleRadiusEnds | gauge.js:276 | 0 maps to the centre and the maximum to the outer radius |
| Radar.ScaleRadiusAdditive | gauge.js:276 | the radial scale is linear |
| Radar.ScaleRadiusMonotone | gauge.js:276 | with a positive maximum and radius, larger values lie further out |
| Radar.RingsEvenlySpaced | gauge.js:283-290 | consecutive grid rings are `radius / levels` apart and the last ring is the outer radius |
| Radar.TickOnRing | gauge.js:324-327 | the `j`-th value label lies on the `j`-th grid ring, whatever the maximum |
| Radar.SlotAngles | gauge.js:273-294 | axis 0 points straight up; axes are `2π / n` apart; every axis angle lies in [−π/2, 3π/2) |
| Radar.AnchorFor | gauge.js:315 | middle exactly when the cosine is within 0.001 of zero; start when clearly positive; end when clearly negative |
| Radar.BaselineFor | gauge.js:316 | middle exactly when the sine is within 0.001 of zero; hanging when clearly positive; auto when clearly negative |
| Radar.PlacementMirrors | gauge.js:315-316 | mirroring a label across an axis swaps start/end (or hanging/auto) and keeps middle |
| Radar.RadarLayout | gauge.js:240-249 | the radius is 70% of half the smaller side and so fits the box; the chart is centred horizontally and its top edge sits 50 px below the 30 px title baseline |
| Radar.AxesLength | gauge.js:293-339 | the axis pass draws one fixed-size block per axis |
| Radar.AxesAt | gauge.js:293-339 | the elements of axis `i`'s block are contiguous and in block order |
| Radar.RadarSceneShape | gauge.js:281-372 | the scene has `levels` rings (innermost first), a block per axis, one polygon and a dot per measure |
| Radar.SceneAxesAt | gauge.js:281-339 | the axis blocks follow the rings directly |
| Radar.RadarSceneAxis | gauge.js:293-320 | axis `i`'s block opens with its line to the outer radius and its name just outside it, at slot angle `i`, with the tolerance-based anchor and baseline |
| Radar.BlockTick | gauge.js:323-338 | when value labels are shown, the `j`-th entry after the axis label is a tick label on ring `j`, with the axis's tolerance-based anchor and baseline, showing `maxValue / levels · j` |
| Radar.RadarSceneTick | gauge.js:323-338 | the same tick label (position, anchor, baseline and shown value), located in the whole scene |
| Radar.RadarScenePolygon | gauge.js:341-372 | after the axes comes one polygon with a vertex per measure, at the scaled value and slot angle, then a dot on each vertex in measure order |
| Radar.FourVertices | gauge.js:341-348 | a scene over points valued 10, 20, 5, 15 with domain 22 has polygon vertices at `radius · value / 22` on axes 0–3 |
| Radar.FourMeasureExample | gauge.js:229-348 | any one-item query whose four measure cells read 10, 20, 5, 15, with no configured maximum, is drawn with domain 22 and polygon vertices at `radius · value / 22`, `radius` being the layout radius |
| Radar.Update | gauge.js:203-372 | the error message is shown exactly when a check fails; otherwise the scene over the row's data points, laid out by the chart layout and scaled to the resolved maximum |
| Radar.MissingMeasureAtCentre | gauge.js:229-235 | a measure whose cell is missing from the row reads 0, so its polygon vertex sits at the centre |
| HeatmapData.Validate | heatmap.js:178-192 | the first failing check in source order (fewer than two dimensions, not exactly one measure, no rows); no error exactly when there are ≥ 2 dimensions, one measure and ≥ 1 row |
| HeatmapData.Distinct | heatmap.js:200-201 | each category once, and exactly the categories that occur |
| HeatmapData.DistinctFirstOccurrence | heatmap.js:200-201 | categories keep the order of their first occurrence |
| HeatmapData.DistinctExample | heatmap.js:200-201 | B, A, B gives B, A |
| HeatmapData.CellMap | heatmap.js:204-217 | the table's keys are exactly the `x|y` keys of rows with a non-NaN value |
| HeatmapData.LaterRowsWin | heatmap.js:208-217 | the value under a key is that of the last row with that key and a non-NaN value |
| HeatmapData.KeyCollision | heatmap.js:213 | two different category pairs can share a key |
| HeatmapData.Extent | heatmap.js:205-216 | absent exactly when all values are NaN; otherwise bounds every non-NaN value (overwritten rows included), and both bounds are attained |
| HeatmapData.ValueDomain | heatmap.js:219-223 | the domain is never empty: [0, 1] when fewer than two distinct values exist, else the attained extent of the values |
| HeatmapColor.HexChar | heatmap.js:250 | the digit character of every value below 16 reads back, base 16, as that value |
| HeatmapColor.ToInt32 | heatmap.js:251 | the ToInt32 wrap-around before `>>`: the result lies in the signed 32-bit range and differs from the input by whole multiples of 2³² |
| HeatmapColor.HexToRgb | heatmap.js:249-252 | every decoded channel is a byte, whatever the string |
| HeatmapColor.DecodeSixDigits | heatmap.js:249-252 | `#rrggbb` decodes to the three two-digit values |
| HeatmapColor.HexRoundTrip | heatmap.js:249-252 | decoding the `#rrggbb` spelling of a byte colour gives that colour back |
| HeatmapColor.Lerp | heatmap.js:256-258 | t = 0 gives the first endpoint, t = 1 the second, and t in [0, 1] stays between them |
| HeatmapColor.InterpolateRgb | heatmap.js:255-259 | the same, channel by channel |
| HeatmapColor.BetweenBytes | heatmap.js:255-259 | a colour between two byte colours is a byte colour |
| HeatmapColor.DecodePalette | heatmap.js:264-268 | all palette stops are byte colours |
| HeatmapColor.ColorForValue | heatmap.js:261-282 | gray exactly for NaN; the minimum gives the min colour and the maximum the max colour; with a mid stop the midpoint gives the mid colour; each value inside the domain lies between the stops of its segment |
| HeatmapColor.ColorInsideDomainIsByte | heatmap.js:261-282 | values inside the domain get byte colours |
| Heatmap.GridLayout | heatmap.js:229-244 | the grid spans exactly the available width and starts at the left margin; cells are square; the height is a cell per Y category; the grid is centred vertically in the available height |
| Heatmap.CellAt | heatmap.js:289-312 | a cell is a square at its column and row; it is gray exactly when its key is not in the table and otherwise has the scale's colour for the stored value; it is labelled exactly when values are shown and its key is present, with the stored value at the centre of the square, a third of the font size lower |
| Heatmap.GridRowsLength | heatmap.js:287-314 | one cell per (x, y) pair |
| Heatmap.GridRowsAt | heatmap.js:287-314 | cell (x, y) is painted as number `y·|X| + x`: Y-major, X within rows |
| Heatmap.GridCell | heatmap.js:287-314 | cell (x, y) in paint order is a square at column x and row y, gray exactly when nothing is stored under its key and otherwise coloured for the stored value, labelled with that value exactly when shown and stored |
| Heatmap.StoredCell | heatmap.js:286-293 | the cell where a category pair's first column and row meet is coloured for the value stored under their key |
| Heatmap.RotationMonotone | heatmap.js:342-345 | for a fixed width, once X labels rotate they stay rotated as categories are added |
| Heatmap.XLabels | heatmap.js:331-349 | one label per X category, in order, on the top line (y = 0) of the label group; rotated with start anchor exactly when there are more than 5 categories and cells are narrower than 80, else centred |
| Heatmap.YLabels | heatmap.js:316-329 | one end-anchored, unrotated label per Y category, in order, ending at the group's origin line (x = 0) |
| Heatmap.LabelsAlignWithCells | heatmap.js:322-336 | the X label of column i and the Y label of row j are centred on that column and row |
| Heatmap.HeatmapScene | heatmap.js:200-349 | the scene's categories are the distinct ones and non-empty; its domain is the rows' value domain; its grid is the square-cell layout for those category counts; when enabled, the Y and X labels are the axis label passes at that cell size, with the Y group ending 10 px left of the grid level with its top and the X group starting 10 px below the grid at its left edge; absent otherwise |
| Heatmap.SceneCells | heatmap.js:200-314 | the cells are the cell pass over the distinct categories, the row table and the value domain |
| Heatmap.RowStored | heatmap.js:200-217 | a row that stored the last value under its key has a column, a row and a table entry holding its value |
| Heatmap.RowCellInPass | heatmap.js:200-293 | in a cell pass over the rows' distinct categories and table, the cell of a row that stored the last value under its key gets the scale's colour for that value |
| Heatmap.RowCellColour | heatmap.js:200-293 | the cell of a row that stored the last value under its key, in the column and row of its categories, gets the scale's colour for that value |
| Heatmap.Update | heatmap.js:178-349 | the error message is shown exactly when a check fails; otherwise the heatmap scene of the rows |
| Heatmap.TwoRowScenario | heatmap.js:200-314 | rows (A, P, 1) and (A, Q, 3): categories A and P, Q; domain [1, 3]; the two cells get exactly the min and max colours |
| Heatmap.UniformValuesEscapeByteRange | heatmap.js:219-223 | a single value 5 gets the fallback domain [0, 1], which does not contain it, and black-to-white blends it to channel 1275 |
| Heatmap.CollidingCellsShareValue | heatmap.js:213 | cells (a\|b, c) and (a, b\|c) read one shared stored value |

## Left out

- DOM and SVG output is left out: element creation, attribute strings, stroke widths, fill colours, opacity, font sizes and the `rgb(...)` text. The model produces the primitives and numbers those strings are built from.
- Title text and the `create` hook (styles and containers) are left out; they compute nothing.
- Number formatting is left out. `toFixed` text of labels is represented by the number being formatted; an empty text for NaN is represented by `None`.
- Sine, cosine and `atan2` are left out. Points are kept in polar form. The gauge pointer's two base points are left out because they need `atan2` of the tip. The radar takes `cos`/`sin` as a parameter only for its anchor and baseline choice.
- IEEE-754 rounding, infinities and signed zero are left out; arithmetic is exact on reals. For example, the heatmap's square-cell grid spans exactly the available width, and `maxValue * 1.1` is exact.
- `Math.PI` is a 16-digit decimal constant, not the true π. The statements proved about angles only use it as a positive constant.
- HeatmapColor.HexToRgb: `parseInt`'s acceptance of leading whitespace, a sign or a `0x` prefix is not modelled. Digits are read from index 1 up to the first non-hex character. No digits at all gives NaN, which the bitwise operators turn into 0, as modelled. Precision loss above 2⁵³ in very long digit strings is not modelled.
- Radar.Update: requires the configured maximum not to be 0. With 0 the code divides by zero in `scaleRadius` and produces infinities, which `Num` cannot represent.
- Heatmap.UniformValuesEscapeByteRange: the out-of-range channel is stated, not corrected. Its visible effect is that a heatmap whose values are all equal can be painted in a colour outside its configured palette. How the `rgb(...)` text is then rendered is outside this model.
- Reading the X/Y dimension values and the measure out of a Looker row is left out. A heatmap row is given already as `(x, y, parsed value)`.
- Radar.Update: the item name is not modelled. The code reads the first dimension's cell of the row for the title (gauge.js:225-226, 255), and that read throws when the row has no such cell. The model's query carries no dimension cells, so it draws every query that passes the checks.
- HeatmapData.Distinct: categories are strings. The code collects the raw cell values into a `Set` (heatmap.js:200-201) but builds keys from their string forms (heatmap.js:213). So values such as `1` and `"1"`, or `null` and `"null"`, are two categories that share one key. The model shows only the other way for keys to collide: categories that contain `|` (`KeyCollision`).

=== FILE: common.dfy ===
/** Definitions shared by the three chart engines: JavaScript numbers as
    reals with an explicit NaN, the outcome of one update call, and the few
    Math functions the engines use. */
module Common {

  datatype Option<+T> = None | Some(value: T)

  /** A JavaScript number as the engines see it after `parseFloat`:
      `None` stands for NaN, `Some(x)` for the finite value `x`
      (floating-point rounding is idealised away). */
  type Num = Option<real>

  /** What one `updateAsync` call produces: either the message shown in the
      error container (and nothing else is drawn), or the complete scene. */
  datatype Render<+S> = Failed(message: string) | Drawn(scene: S)

  /** A row's measure cell as the gauge and the radar read it,
      `parseFloat(cell ? cell.value : 0)`: an absent cell reads as 0, a
      present one as its parsed value, NaN when it does not parse. */
  function CellValue(row: map<string, Num>, name: string): (v: Num)
  {
    if name in row then row[name] else Some(0.0)
  }

  /** The centre and radius of a round chart inside its SVG element. */
  datatype Layout = Layout(centerX: real, centerY: real, radius: real)

  /** Baseline of the chart title, shared by the gauge and the radar. */
  const TitleY: real := 30.0

  /** SVG `text-anchor`. */
  datatype Anchor = Middle | Start | End

  /** The decimal value of `Math.PI`. */
  const Pi: real := 3.141592653589793

  const TwoPi: real := 2.0 * Pi

  /** `Math.min` and `Math.max` on two non-NaN numbers. */
  function Min(a: real, b: real): (r: real)
    ensures r <= a && r <= b
    ensures r == a || r == b
  {
    if a <= b then a else b
  }

  function Max(a: real, b: real): (r: real)
    ensures r >= a && r >= b
    ensures r == a || r == b
  {
    if a >= b then a else b
  }

  /** `Math.trunc`: the integer part, rounding toward zero. */
  function Trunc(x: real): (n: int)
    ensures x >= 0.0 ==> n as real <= x < n as real + 1.0
    ensures x < 0.0 ==> n as real - 1.0 < x <= n as real
  {
    if x >= 0.0 then x.Floor else -((-x).Floor)
  }

  /** `Math.round`: the nearest integer, halves rounded up. */
  function Round(x: real): (n: int)
    ensures x - 0.5 < n as real <= x + 0.5
  {
    (x + 0.5).Floor
  }

  /** A part of a positive whole is a fraction in [0, 1]. */
  lemma FractionInUnit(a: real, d: real)
    requires d > 0.0 && 0.0 <= a <= d
    ensures 0.0 <= a / d <= 1.0
  {
    assert (a / d) * d == a;
  }
}

=== FILE: heatmap.dfy ===
/** The layout half of the heatmap's `updateAsync`: square cells sized from
    the available width, the cells painted row by row with their colour and
    optional value label, the axis labels with the 45° rotation rule, and the
    whole update call. */
module Heatmap {
  import opened Common
  import opened HeatmapData
  import opened HeatmapColor

  // ---------------------------------------------------------------------------
  // Grid geometry
  // ---------------------------------------------------------------------------

  const MarginTop: real := 50.0
  const MarginRight: real := 20.0
  const MarginBottom: real := 80.0
  const MarginLeft: real := 100.0

  datatype Grid = Grid(cellSize: real, chartWidth: real, chartHeight: real, translateX: real, translateY: real)

  /** Cells are forced square from the width: the grid spans the available
      width exactly and starts at the left margin, while its height follows
      from the number of Y categories and may over- or underflow. */
  function GridLayout(width: real, height: real, nx: nat, ny: nat): (g: Grid)
    requires nx > 0
    ensures g.chartWidth == width - MarginLeft - MarginRight
    ensures g.cellSize * nx as real == g.chartWidth
    ensures g.chartHeight == g.cellSize * ny as real
    ensures g.translateX == MarginLeft
    ensures g.translateY + g.chartHeight / 2.0 == MarginTop + (height - MarginTop - MarginBottom) / 2.0
  {
    var availW := width - MarginLeft - MarginRight;
    var availH := height - MarginTop - MarginBottom;
    var cs := availW / nx as real;
    var chartW := cs * nx as real;
    var chartH := cs * ny as real;
    Grid(cs, chartW, chartH, MarginLeft + (availW - chartW) / 2.0, MarginTop + (availH - chartH) / 2.0)
  }

  // ---------------------------------------------------------------------------
  // Cells
  // ---------------------------------------------------------------------------

  datatype CellLabel = CellLabel(x: real, y: real, value: real)

  /** One cell rectangle (a square of side `size` at `(x, y)` in the grid's
      frame) and the value label drawn right after it, if any. */
  datatype Cell = Cell(x: real, y: real, size: real, fill: Color, valueLabel: Option<CellLabel>)

  /** Everything the cell pass reads. */
  datatype CellInputs = CellInputs(
    xs: seq<string>, ys: seq<string>, table: map<string, real>,
    domain: Domain, palette: Palette, cellSize: real,
    showValues: bool, valueSize: real)

  predicate ValidInputs(c: CellInputs)
  {
    c.domain.lo < c.domain.hi
  }

  /** The value stored for the cell in column `xi` and row `yi`, if any. */
  function CellValueAt(c: CellInputs, xi: nat, yi: nat): Num
    requires xi < |c.xs| && yi < |c.ys|
  {
    Lookup(c.table, Key(c.xs[xi], c.ys[yi]))
  }

  /** The cell in column `xi` and row `yi`: a square at its column and row,
      gray exactly when nothing is stored under its key, otherwise coloured
      by the scale for the stored value, which its label (when values are
      shown) repeats at the centre of the square, a third of the font size
      lower. */
  function CellAt(c: CellInputs, xi: nat, yi: nat): (cell: Cell)
    requires ValidInputs(c) && xi < |c.xs| && yi < |c.ys|
    ensures cell.x == xi as real * c.cellSize && cell.y == yi as real * c.cellSize
    ensures cell.size == c.cellSize
    ensures cell.fill.Missing? <==> Key(c.xs[xi], c.ys[yi]) !in c.table
    ensures var k := Key(c.xs[xi], c.ys[yi]);
      k in c.table ==> cell.fill == ColorForValue(Some(c.table[k]), c.domain.lo, c.domain.hi, c.palette)
    ensures cell.valueLabel.Some? <==> c.showValues && Key(c.xs[xi], c.ys[yi]) in c.table
    ensures var k := Key(c.xs[xi], c.ys[yi]);
      c.showValues && k in c.table ==>
        cell.valueLabel == Some(CellLabel(cell.x + c.cellSize / 2.0, cell.y + c.cellSize / 2.0 + c.valueSize / 3.0, c.table[k]))
  {
    var cs := c.cellSize;
    var v := CellValueAt(c, xi, yi);
    var x, y := xi as real * cs, yi as real * cs;
    Cell(x, y, cs,
         ColorForValue(v, c.domain.lo, c.domain.hi, c.palette),
         if c.showValues && v.Some? then Some(CellLabel(x + cs / 2.0, y + cs / 2.0 + c.valueSize / 3.0, v.value)) else None)
  }

  function GridRow(c: CellInputs, yi: nat): (row: seq<Cell>)
    requires ValidInputs(c) && yi < |c.ys|
    ensures |row| == |c.xs|
  {
    seq(|c.xs|, xi requires 0 <= xi < |c.xs| => CellAt(c, xi, yi))
  }

  /** Rows `0 .. m-1` of cells, each row left to right. */
  function GridRows(c: CellInputs, m: nat): seq<Cell>
    requires ValidInputs(c) && m <= |c.ys|
  {
    if m == 0 then [] else GridRows(c, m - 1) + GridRow(c, m - 1)
  }

  lemma {:induction false} GridRowsLength(c: CellInputs, m: nat)
    requires ValidInputs(c) && m <= |c.ys|
    ensures |GridRows(c, m)| == m * |c.xs|
  {
    if m > 0 {
      GridRowsLength(c, m - 1);
      assert m * |c.xs| == (m - 1) * |c.xs| + |c.xs|;
    }
  }

  /** The cells are painted Y-major: cell `(xi, yi)` is number `yi·|x| + xi`. */
  lemma {:induction false} GridRowsAt(c: CellInputs, m: nat, xi: nat, yi: nat)
    requires ValidInputs(c) && m <= |c.ys| && xi < |c.xs| && yi < m
    ensures yi * |c.xs| + xi < |GridRows(c, m)|
    ensures GridRows(c, m)[yi * |c.xs| + xi] == CellAt(c, xi, yi)
  {
    var prev := GridRows(c, m - 1);
    GridRowsLength(c, m - 1);
    assert GridRows(c, m) == prev + GridRow(c, m - 1);
    if yi < m - 1 {
      GridRowsAt(c, m - 1, xi, yi);
    } else {
      assert yi * |c.xs| == |prev|;
    }
  }

  // ---------------------------------------------------------------------------
  // Axis labels
  // ---------------------------------------------------------------------------

  /** An axis label at `(x, y)` in its axis group's frame; a rotated label is
      turned 45° about its own position. */
  datatype AxisLabel = AxisLabel(x: real, y: real, anchor: Anchor, rotated: bool, text: string)

  const RotateAbove: nat := 5
  const RotateBelowCell: real := 80.0

  /** The heuristic for turning the X labels. */
  predicate RotateXLabels(nx: nat, cellSize: real)
  {
    nx > RotateAbove && cellSize < RotateBelowCell
  }

  /** For a fixed width, once the labels turn they stay turned as the number
      of categories grows. */
  lemma RotationMonotone(availW: real, n: nat, m: nat)
    requires 0 < n <= m
    requires RotateXLabels(n, availW / n as real)
    ensures RotateXLabels(m, availW / m as real)
  {
    var a, b := availW / n as real, availW / m as real;
    assert b * m as real == availW;
    if availW > 0.0 {
      assert a * n as real == availW;
      assert a > 0.0;
      var d := (m - n) as real;
      assert a * d >= 0.0;
      assert a * m as real == a * n as real + a * d;
      assert b * m as real <= a * m as real;
      assert b <= a;
    } else {
      assert b <= 0.0;
    }
  }

  function XLabels(xs: seq<string>, cellSize: real): (ls: seq<AxisLabel>)
    ensures |ls| == |xs|
    ensures forall i :: 0 <= i < |xs| ==> ls[i].text == xs[i] && ls[i].y == 0.0
    ensures forall i :: 0 <= i < |xs| ==>
      ls[i].rotated == RotateXLabels(|xs|, cellSize) &&
      (ls[i].anchor == Start <==> ls[i].rotated) &&
      (ls[i].anchor == Middle <==> !ls[i].rotated)
  {
    var turn := RotateXLabels(|xs|, cellSize);
    seq(|xs|, i requires 0 <= i < |xs| =>
      AxisLabel(i as real * cellSize + cellSize / 2.0, 0.0, if turn then Start else Middle, turn, xs[i]))
  }

  function YLabels(ys: seq<string>, cellSize: real, labelSize: real): (ls: seq<AxisLabel>)
    ensures |ls| == |ys|
    ensures forall i :: 0 <= i < |ys| ==> ls[i].text == ys[i] && ls[i].x == 0.0 && ls[i].anchor == End && !ls[i].rotated
  {
    seq(|ys|, i requires 0 <= i < |ys| =>
      AxisLabel(0.0, i as real * cellSize + cellSize / 2.0 + labelSize / 3.0, End, false, ys[i]))
  }

  /** The centre of X label `i` and of Y label `i` line up with column and
      row `i` of the grid. */
  lemma LabelsAlignWithCells(xs: seq<string>, ys: seq<string>, cs: real, labelSize: real, i: nat, j: nat)
    requires i < |xs| && j < |ys|
    ensures XLabels(xs, cs)[i].x == i as real * cs + cs / 2.0
    ensures YLabels(ys, cs, labelSize)[j].y - labelSize / 3.0 == j as real * cs + cs / 2.0
  {
  }

  // ---------------------------------------------------------------------------
  // One update call
  // ---------------------------------------------------------------------------

  datatype HeatmapConfig = HeatmapConfig(
    minColor: string, midColor: string, maxColor: string, useMidColor: bool,
    showXLabels: bool, showYLabels: bool, yLabelSize: real,
    showCellValues: bool, cellValueSize: real)

  /** Gap between the grid and each axis label group. */
  const AxisGap: real := 10.0

  /** The Y label group ends `AxisGap` left of the grid, level with its top. */
  function YLabelOrigin(g: Grid): (real, real)
  {
    (g.translateX - AxisGap, g.translateY)
  }

  /** The X label group starts `AxisGap` below the grid, level with its left edge. */
  function XLabelOrigin(g: Grid): (real, real)
  {
    (g.translateX, g.translateY + g.chartHeight + AxisGap)
  }

  /** The heatmap's scene: the grid frame, the categories and domain it was
      built from, the cells in paint order, then the Y and X axis labels with
      the origin each label group is translated to (absent when the group is
      not drawn). */
  datatype Scene = Scene(
    grid: Grid, xs: seq<string>, ys: seq<string>, domain: Domain,
    cells: seq<Cell>,
    yLabels: seq<AxisLabel>, yLabelOrigin: Option<(real, real)>,
    xLabels: seq<AxisLabel>, xLabelOrigin: Option<(real, real)>)

  datatype Query = Query(dimensionCount: nat, measureCount: nat, rows: seq<Row>)

  function Inputs(rows: seq<Row>, cfg: HeatmapConfig, cellSize: real): (c: CellInputs)
    ensures ValidInputs(c)
  {
    CellInputs(Distinct(XsOf(rows)), Distinct(YsOf(rows)), CellMap(rows), ValueDomain(rows),
               DecodePalette(cfg.minColor, cfg.midColor, cfg.maxColor, cfg.useMidColor),
               cellSize, cfg.showCellValues, cfg.cellValueSize)
  }

  function HeatmapScene(rows: seq<Row>, cfg: HeatmapConfig, width: real, height: real): (s: Scene)
    requires |rows| > 0
    ensures s.xs == Distinct(XsOf(rows)) && s.ys == Distinct(YsOf(rows))
    ensures 0 < |s.xs| && 0 < |s.ys|
    ensures s.domain == ValueDomain(rows)
    ensures s.grid == GridLayout(width, height, |s.xs|, |s.ys|)
    ensures cfg.showYLabels ==> s.yLabels == YLabels(s.ys, s.grid.cellSize, cfg.yLabelSize)
    ensures !cfg.showYLabels ==> s.yLabels == [] && s.yLabelOrigin.None?
    ensures cfg.showXLabels ==> s.xLabels == XLabels(s.xs, s.grid.cellSize)
    ensures !cfg.showXLabels ==> s.xLabels == [] && s.xLabelOrigin.None?
    ensures cfg.showYLabels ==> s.yLabelOrigin == Some(YLabelOrigin(s.grid))
    ensures cfg.showXLabels ==> s.xLabelOrigin == Some(XLabelOrigin(s.grid))
  {
    var xs, ys := Distinct(XsOf(rows)), Distinct(YsOf(rows));
    assert rows[0].x in xs && rows[0].y in ys;
    var g := GridLayout(width, height, |xs|, |ys|);
    var c := Inputs(rows, cfg, g.cellSize);
    Scene(g, xs, ys, c.domain, GridRows(c, |ys|),
          if cfg.showYLabels then YLabels(ys, g.cellSize, cfg.yLabelSize) else [],
          if cfg.showYLabels then Some((MarginLeft - AxisGap, g.translateY)) else None,
          if cfg.showXLabels then XLabels(xs, g.cellSize) else [],
          if cfg.showXLabels then Some(XLabelOrigin(g)) else None)
  }

  /** Cell `(xi, yi)` of a cell pass is number `yi·|x| + xi`, a square at
      its column and row, gray exactly when nothing is stored under its key
      and otherwise coloured for the stored value, and labelled with that
      value exactly when values are shown and a value is stored. */
  lemma GridCell(c: CellInputs, xi: nat, yi: nat)
    requires ValidInputs(c) && xi < |c.xs| && yi < |c.ys|
    ensures var cells, k, cs, key := GridRows(c, |c.ys|), yi * |c.xs| + xi, c.cellSize, Key(c.xs[xi], c.ys[yi]);
      && |cells| == |c.xs| * |c.ys|
      && k < |cells|
      && cells[k].x == xi as real * cs && cells[k].y == yi as real * cs
      && cells[k].size == cs
      && (cells[k].fill.Missing? <==> key !in c.table)
      && (key in c.table ==> cells[k].fill == ColorForValue(Some(c.table[key]), c.domain.lo, c.domain.hi, c.palette))
      && (cells[k].valueLabel.Some? <==> c.showValues && key in c.table)
      && (c.showValues && key in c.table ==>
            cells[k].valueLabel == Some(CellLabel(cells[k].x + cs / 2.0, cells[k].y + cs / 2.0 + c.valueSize / 3.0, c.table[key])))
  {
    GridRowsLength(c, |c.ys|);
    GridRowsAt(c, |c.ys|, xi, yi);
    assert |c.ys| * |c.xs| == |c.xs| * |c.ys|;
  }

  /** The scene's cells are the cell pass over the distinct categories, the
      rows' table and their domain. */
  lemma SceneCells(rows: seq<Row>, cfg: HeatmapConfig, width: real, height: real)
    requires |rows| > 0
    ensures var s := HeatmapScene(rows, cfg, width, height);
      var c := Inputs(rows, cfg, s.grid.cellSize);
      && c.xs == s.xs && c.ys == s.ys && c.table == CellMap(rows)
      && s.domain == ValueDomain(rows)
      && s.cells == GridRows(c, |s.ys|)
  {
  }

  /** Cells painted over the categories `xs` and `ys` have a column for `x`
      and a row for `y`, and the cell where they meet is filled with `fill`. */
  ghost predicate CellFilled(xs: seq<string>, ys: seq<string>, cells: seq<Cell>, x: string, y: string, fill: Color)
  {
    && x in xs && y in ys
    && var xi, yi := FirstIndex(xs, x), FirstIndex(ys, y);
    && yi * |xs| + xi < |cells|
    && cells[yi * |xs| + xi].fill == fill
  }

  /** The cell at the first column of `x` and the first row of `y` is
      coloured for the value stored under their key. */
  lemma StoredCell(c: CellInputs, x: string, y: string)
    requires ValidInputs(c) && x in c.xs && y in c.ys && Key(x, y) in c.table
    ensures CellFilled(c.xs, c.ys, GridRows(c, |c.ys|), x, y,
                       ColorForValue(Some(c.table[Key(x, y)]), c.domain.lo, c.domain.hi, c.palette))
  {
    GridCell(c, FirstIndex(c.xs, x), FirstIndex(c.ys, y));
  }

  /** A row that stored the last value under its key has a column, a row
      and a table entry holding its value. */
  lemma RowStored(rows: seq<Row>, i: nat)
    requires i < |rows| && LastWriter(rows, i)
    ensures rows[i].x in Distinct(XsOf(rows)) && rows[i].y in Distinct(YsOf(rows))
    ensures Key(rows[i].x, rows[i].y) in CellMap(rows)
    ensures Some(CellMap(rows)[Key(rows[i].x, rows[i].y)]) == rows[i].value
  {
    assert XsOf(rows)[i] == rows[i].x && YsOf(rows)[i] == rows[i].y;
    LaterRowsWin(rows, i);
  }

  /** In a cell pass over the rows' categories and table, the cell of a row
      that stored the last value under its key gets the scale's colour for
      that value. */
  lemma RowCellInPass(rows: seq<Row>, c: CellInputs, i: nat)
    requires ValidInputs(c) && i < |rows| && LastWriter(rows, i)
    requires c.xs == Distinct(XsOf(rows)) && c.ys == Distinct(YsOf(rows)) && c.table == CellMap(rows)
    ensures CellFilled(c.xs, c.ys, GridRows(c, |c.ys|), rows[i].x, rows[i].y,
                       ColorForValue(rows[i].value, c.domain.lo, c.domain.hi, c.palette))
  {
    RowStored(rows, i);
    StoredCell(c, rows[i].x, rows[i].y);
  }

  /** A row that stored the last value under its key is drawn: its cell, in
      the column and row of its categories, gets the scale's colour for its
      value. */
  lemma RowCellColour(rows: seq<Row>, cfg: HeatmapConfig, width: real, height: real, i: nat)
    requires i < |rows| && LastWriter(rows, i)
    ensures var s, d := HeatmapScene(rows, cfg, width, height), ValueDomain(rows);
      CellFilled(s.xs, s.ys, s.cells, rows[i].x, rows[i].y,
                 ColorForValue(rows[i].value, d.lo, d.hi,
                               DecodePalette(cfg.minColor, cfg.midColor, cfg.maxColor, cfg.useMidColor)))
  {
    var s := HeatmapScene(rows, cfg, width, height);
    var c := Inputs(rows, cfg, s.grid.cellSize);
    SceneCells(rows, cfg, width, height);
    RowCellInPass(rows, c, i);
    assert s.cells == GridRows(c, |c.ys|) && s.xs == c.xs && s.ys == c.ys;
  }

  function Update(q: Query, cfg: HeatmapConfig, width: real, height: real): (r: Render<Scene>)
    ensures var check := Validate(q.dimensionCount, q.measureCount, |q.rows|);
      && (r.Failed? <==> check.Some?)
      && (r.Failed? ==> r.message == Message(check.value))
    ensures r.Drawn? ==> |q.rows| >= 1
    ensures r.Drawn? && |q.rows| >= 1 ==> r.scene == HeatmapScene(q.rows, cfg, width, height)
  {
    match Validate(q.dimensionCount, q.measureCount, |q.rows|)
    case Some(e) => Failed(Message(e))
    case None => Drawn(HeatmapScene(q.rows, cfg, width, height))
  }

  // ---------------------------------------------------------------------------
  // Scenarios and unguarded edges
  // ---------------------------------------------------------------------------

  function TwoRows(): seq<Row>
  {
    [Row("A", "P", Some(1.0)), Row("A", "Q", Some(3.0))]
  }

  lemma TwoRowXs()
    ensures Distinct(XsOf(TwoRows())) == ["A"]
  {
    assert XsOf(TwoRows()) == ["A", "A"];
    assert ["A", "A"][..1] == ["A"];
    assert Distinct(["A"]) == ["A"];
  }

  lemma TwoRowYs()
    ensures Distinct(YsOf(TwoRows())) == ["P", "Q"]
  {
    assert YsOf(TwoRows()) == ["P", "Q"];
    assert ["P", "Q"][..1] == ["P"];
    assert Distinct(["P"]) == ["P"];
  }

  lemma TwoRowDomain()
    ensures ValueDomain(TwoRows()) == Domain(1.0, 3.0)
  {
    var rows := TwoRows();
    assert rows[..1] == [rows[0]];
    assert Extent(rows) == Some((1.0, 3.0));
    assert Finite(rows[0]) && Finite(rows[1]) && rows[0].value.value < rows[1].value.value;
    assert Spread(rows);
  }

  lemma TwoRowTable()
    ensures CellMap(TwoRows()) == map["A|P" := 1.0, "A|Q" := 3.0]
  {
    var rows := TwoRows();
    assert rows[..1] == [rows[0]];
    assert rows[..0] == [];
    assert RowKey(rows[0]) == "A|P";
    assert RowKey(rows[1]) == "A|Q";
    assert CellMap(rows[..1]) == map["A|P" := 1.0];
  }

  /** Two rows (A, P, 1) and (A, Q, 3): the domain is [1, 3], cell (A, P)
      gets exactly the min colour and cell (A, Q) exactly the max colour
      under two-stop interpolation. */
  lemma TwoRowScenario(cfg: HeatmapConfig, width: real, height: real)
    requires !cfg.useMidColor
    ensures var s := HeatmapScene(TwoRows(), cfg, width, height);
      && s.xs == ["A"] && s.ys == ["P", "Q"]
      && s.domain == Domain(1.0, 3.0)
      && |s.cells| == 2
      && s.cells[0].fill == Fill(HexToRgb(cfg.minColor))
      && s.cells[1].fill == Fill(HexToRgb(cfg.maxColor))
  {
    var rows := TwoRows();
    TwoRowXs();
    TwoRowYs();
    TwoRowDomain();
    TwoRowTable();
    var s := HeatmapScene(rows, cfg, width, height);
    SceneCells(rows, cfg, width, height);
    var c := Inputs(rows, cfg, s.grid.cellSize);
    GridRowsLength(c, 2);
    GridRowsAt(c, 2, 0, 0);
    GridRowsAt(c, 2, 0, 1);
    assert Key("A", "P") == "A|P" && Key("A", "Q") == "A|Q";
    assert CellValueAt(c, 0, 0) == Some(1.0);
    assert CellValueAt(c, 0, 1) == Some(3.0);
  }

  /** When every value is equal the domain falls back to [0, 1] even though
      the value lies outside it, and nothing clamps the blend: a lone value 5
      on a black-to-white scale gets channels of 1275. */
  lemma UniformValuesEscapeByteRange()
    ensures var rows := [Row("A", "P", Some(5.0))];
      && ValueDomain(rows) == Domain(0.0, 1.0)
      && ColorForValue(Some(5.0), 0.0, 1.0, DecodePalette("#000000", "#000000", "#ffffff", false))
         == Fill(Rgb(1275, 1275, 1275))
  {
    var rows := [Row("A", "P", Some(5.0))];
    assert !Spread(rows);
    DecodeSixDigits("#000000");
    DecodeSixDigits("#ffffff");
    assert HexToRgb("#ffffff") == Rgb(255, 255, 255);
    assert HexToRgb("#000000") == Rgb(0, 0, 0);
    assert Round(0.0 + 255.0 * 5.0) == 1275;
  }

  /** Two different category pairs that collide under the `x|y` key read
      one shared stored value in two cells. */
  lemma CollidingCellsShareValue()
    ensures var rows := [Row("a|b", "c", Some(1.0)), Row("a", "b|c", Some(2.0))];
      && Lookup(CellMap(rows), Key("a|b", "c")) == Some(2.0)
      && Lookup(CellMap(rows), Key("a", "b|c")) == Some(2.0)
  {
    var rows := [Row("a|b", "c", Some(1.0)), Row("a", "b|c", Some(2.0))];
    KeyCollision();
    assert LastWriter(rows, 1);
    LaterRowsWin(rows, 1);
  }
}

=== FILE: heatmap_color.dfy ===
/** The heatmap's colour scale: `hexToRgb`, `interpolateRgb` and
    `getColorForValue`, with the gray "no data" colour kept apart from every
    interpolated one. */
module HeatmapColor {
  import opened Common

  /** Three channels as `interpolateRgb` computes them: integers, not
      clamped to 0..255. */
  datatype Rgb = Rgb(r: int, g: int, b: int)

  /** A cell fill: the gray `#CCCCCC` used for a missing or NaN value, or an
      `rgb(...)` colour from the scale. */
  datatype Color = Missing | Fill(rgb: Rgb)

  predicate IsByte(n: int)
  {
    0 <= n < 256
  }

  predicate IsByteRgb(c: Rgb)
  {
    IsByte(c.r) && IsByte(c.g) && IsByte(c.b)
  }

  // ---------------------------------------------------------------------------
  // Hex decoding
  // ---------------------------------------------------------------------------

  /** The value of a hexadecimal digit of either case. */
  function HexDigit(c: char): (d: Option<nat>)
    ensures d.Some? ==> d.value < 16
  {
    if '0' <= c <= '9' then Some(c as nat - '0' as nat)
    else if 'a' <= c <= 'f' then Some(c as nat - 'a' as nat + 10)
    else if 'A' <= c <= 'F' then Some(c as nat - 'A' as nat + 10)
    else None
  }

  /** The longest prefix of `s` made of hex digits, read in base 16 on top of
      `acc`. */
  function HexPrefix(s: string, acc: nat): nat
    decreases |s|
  {
    if |s| == 0 || HexDigit(s[0]).None? then acc
    else HexPrefix(s[1..], acc * 16 + HexDigit(s[0]).value)
  }

  /** JavaScript's ToInt32, the conversion every bitwise operator applies:
      wrap to 32 bits and read as two's complement. */
  function ToInt32(n: int): (i: int)
    ensures -0x8000_0000 <= i < 0x8000_0000
    ensures (i - n) % 0x1_0000_0000 == 0
    ensures 0 <= n < 0x8000_0000 ==> i == n
  {
    var u := n % 0x1_0000_0000;
    if u >= 0x8000_0000 then u - 0x1_0000_0000 else u
  }

  /** `hexToRgb`: `parseInt(hex.slice(1), 16)` split into bytes by
      `(n >> 16) & 255`, `(n >> 8) & 255` and `n & 255`. `parseInt` reads the
      leading hex digits; with none it yields NaN, which ToInt32 turns into 0.
      An arithmetic shift right by k is floor division by 2^k, and `& 255`
      of a two's complement integer is its remainder modulo 256. */
  function HexToRgb(hex: string): (c: Rgb)
    ensures IsByteRgb(c)
  {
    var digits := if |hex| == 0 then "" else hex[1..];
    var n := ToInt32(HexPrefix(digits, 0));
    Rgb((n / 0x1_0000) % 256, (n / 0x100) % 256, n % 256)
  }

  /** A `#RRGGBB` string: a leading character followed by six hex digits. */
  predicate SixDigitHex(s: string)
  {
    |s| == 7 && forall i :: 1 <= i < 7 ==> HexDigit(s[i]).Some?
  }

  function DigitAt(s: string, i: nat): nat
    requires SixDigitHex(s) && 1 <= i < 7
  {
    HexDigit(s[i]).value
  }

  lemma SplitBytes(r: int, g: int, b: int)
    requires IsByte(r) && IsByte(g) && IsByte(b)
    ensures (r * 0x1_0000 + g * 0x100 + b) / 0x1_0000 % 256 == r
    ensures (r * 0x1_0000 + g * 0x100 + b) / 0x100 % 256 == g
    ensures (r * 0x1_0000 + g * 0x100 + b) % 256 == b
  {
    var n := r * 0x1_0000 + g * 0x100 + b;
    assert n == 0x1_0000 * r + (g * 0x100 + b) && 0 <= g * 0x100 + b < 0x1_0000;
    assert n / 0x1_0000 == r;
    assert n == 0x100 * (r * 0x100 + g) + b;
    assert n / 0x100 == r * 0x100 + g;
    assert (r * 0x100 + g) % 256 == g;
    assert n % 256 == b;
  }

  /** A six-digit colour decodes to the three bytes its digit pairs spell. */
  lemma DecodeSixDigits(s: string)
    requires SixDigitHex(s)
    ensures HexToRgb(s) == Rgb(DigitAt(s, 1) * 16 + DigitAt(s, 2),
                               DigitAt(s, 3) * 16 + DigitAt(s, 4),
                               DigitAt(s, 5) * 16 + DigitAt(s, 6))
  {
    var t := s[1..];
    var d1, d2, d3, d4, d5, d6 := DigitAt(s, 1), DigitAt(s, 2), DigitAt(s, 3), DigitAt(s, 4), DigitAt(s, 5), DigitAt(s, 6);
    var n := HexPrefix(t, 0);
    assert t[0] == s[1] && t[1..] == s[2..];
    assert s[2..][0] == s[2] && s[2..][1..] == s[3..];
    assert s[3..][0] == s[3] && s[3..][1..] == s[4..];
    assert s[4..][0] == s[4] && s[4..][1..] == s[5..];
    assert s[5..][0] == s[5] && s[5..][1..] == s[6..];
    assert s[6..][0] == s[6] && s[6..][1..] == [];
    calc {
      n;
      HexPrefix(s[2..], d1);
      HexPrefix(s[3..], d1 * 16 + d2);
      HexPrefix(s[4..], (d1 * 16 + d2) * 16 + d3);
      HexPrefix(s[5..], ((d1 * 16 + d2) * 16 + d3) * 16 + d4);
      HexPrefix(s[6..], (((d1 * 16 + d2) * 16 + d3) * 16 + d4) * 16 + d5);
      ((((d1 * 16 + d2) * 16 + d3) * 16 + d4) * 16 + d5) * 16 + d6;
    }
    var r, g, b := d1 * 16 + d2, d3 * 16 + d4, d5 * 16 + d6;
    assert n == r * 0x1_0000 + g * 0x100 + b;
    SplitBytes(r, g, b);
  }

  /** The lower-case hex digit for 0..15. */
  function HexChar(d: nat): (c: char)
    requires d < 16
    ensures HexDigit(c) == Some(d)
  {
    if d < 10 then ('0' as int + d) as char else ('a' as int + d - 10) as char
  }

  /** `#rrggbb` for a colour with byte channels. */
  function ToHex(c: Rgb): (s: string)
    requires IsByteRgb(c)
    ensures SixDigitHex(s) && s[0] == '#'
  {
    ['#', HexChar(c.r / 16), HexChar(c.r % 16), HexChar(c.g / 16), HexChar(c.g % 16),
     HexChar(c.b / 16), HexChar(c.b % 16)]
  }

  /** Decoding inverts encoding: every byte triple survives `hexToRgb`. */
  lemma HexRoundTrip(c: Rgb)
    requires IsByteRgb(c)
    ensures HexToRgb(ToHex(c)) == c
  {
    DecodeSixDigits(ToHex(c));
  }

  // ---------------------------------------------------------------------------
  // Interpolation
  // ---------------------------------------------------------------------------

  lemma MulSign(x: real, y: real)
    requires y >= 0.0
    ensures x >= 0.0 ==> x * y >= 0.0
    ensures x <= 0.0 ==> x * y <= 0.0
  {
  }

  /** The blend splits the gap `b - a` into the parts `t` and `1 - t`, both
      of the gap's sign. */
  lemma BlendSplit(a: real, b: real, t: real)
    requires 0.0 <= t <= 1.0
    ensures a + (b - a) * t + (b - a) * (1.0 - t) == b
    ensures a <= b ==> (b - a) * t >= 0.0 && (b - a) * (1.0 - t) >= 0.0
    ensures b <= a ==> (b - a) * t <= 0.0 && (b - a) * (1.0 - t) <= 0.0
  {
    MulSign(b - a, t);
    MulSign(b - a, 1.0 - t);
  }

  /** `a + (b - a) * t`, the unrounded blend. */
  function Blend(a: real, b: real, t: real): real
  {
    a + (b - a) * t
  }

  /** A blend with a weight in [0, 1] lies between its endpoints. */
  lemma BlendBetween(a: real, b: real, t: real)
    requires 0.0 <= t <= 1.0
    ensures a <= b ==> a <= Blend(a, b, t) <= b
    ensures b <= a ==> b <= Blend(a, b, t) <= a
  {
    BlendSplit(a, b, t);
  }

  /** `Math.round(a + (b - a) * t)`. */
  function Lerp(a: int, b: int, t: real): (c: int)
    ensures t == 0.0 ==> c == a
    ensures t == 1.0 ==> c == b
    ensures 0.0 <= t <= 1.0 && a <= b ==> a <= c <= b
    ensures 0.0 <= t <= 1.0 && b <= a ==> b <= c <= a
  {
    var x := Blend(a as real, b as real, t);
    assert 0.0 <= t <= 1.0 ==> (a <= b ==> a as real <= x <= b as real) && (b <= a ==> b as real <= x <= a as real) by {
      if 0.0 <= t <= 1.0 { BlendBetween(a as real, b as real, t); }
    }
    Round(x)
  }

  /** Every channel of `c` lies between the corresponding channels of `c1`
      and `c2`. */
  predicate Between(c: Rgb, c1: Rgb, c2: Rgb)
  {
    && (Min(c1.r as real, c2.r as real) <= c.r as real <= Max(c1.r as real, c2.r as real))
    && (Min(c1.g as real, c2.g as real) <= c.g as real <= Max(c1.g as real, c2.g as real))
    && (Min(c1.b as real, c2.b as real) <= c.b as real <= Max(c1.b as real, c2.b as real))
  }

  /** `interpolateRgb(rgb1, rgb2, t)`. */
  function InterpolateRgb(c1: Rgb, c2: Rgb, t: real): (c: Rgb)
    ensures t == 0.0 ==> c == c1
    ensures t == 1.0 ==> c == c2
    ensures 0.0 <= t <= 1.0 ==> Between(c, c1, c2)
  {
    Rgb(Lerp(c1.r, c2.r, t), Lerp(c1.g, c2.g, t), Lerp(c1.b, c2.b, t))
  }

  /** A colour between two byte colours is a byte colour. */
  lemma BetweenBytes(c: Rgb, c1: Rgb, c2: Rgb)
    requires Between(c, c1, c2) && IsByteRgb(c1) && IsByteRgb(c2)
    ensures IsByteRgb(c)
  {
  }

  // ---------------------------------------------------------------------------
  // Colour for a value
  // ---------------------------------------------------------------------------

  /** The decoded `min_color`, `mid_color` and `max_color` and the
      `use_mid_color` switch. */
  datatype Palette = Palette(minColor: Rgb, midColor: Rgb, maxColor: Rgb, useMid: bool)

  function DecodePalette(minHex: string, midHex: string, maxHex: string, useMid: bool): (p: Palette)
    ensures IsByteRgb(p.minColor) && IsByteRgb(p.midColor) && IsByteRgb(p.maxColor)
  {
    Palette(HexToRgb(minHex), HexToRgb(midHex), HexToRgb(maxHex), useMid)
  }

  lemma DivEnds(d: real)
    requires d != 0.0
    ensures 0.0 / d == 0.0 && d / d == 1.0
  {
  }

  /** The blend of `c1` toward `c2` at the position of `x` in [from, to]. */
  function Segment(x: real, from: real, to: real, c1: Rgb, c2: Rgb): (c: Rgb)
    requires from < to
    ensures x == from ==> c == c1
    ensures x == to ==> c == c2
    ensures from <= x <= to ==> Between(c, c1, c2)
  {
    var d := to - from;
    var t := (x - from) / d;
    assert x == from ==> t == 0.0 by {
      if x == from { assert x - from == 0.0; DivEnds(d); }
    }
    assert x == to ==> t == 1.0 by {
      if x == to { assert x - from == d; DivEnds(d); }
    }
    assert from <= x <= to ==> 0.0 <= t <= 1.0 by {
      if from <= x <= to { FractionInUnit(x - from, d); }
    }
    InterpolateRgb(c1, c2, t)
  }

  /** `getColorForValue` over the domain [lo, hi]: gray for NaN or a missing
      cell; otherwise the two-stop blend, or with a mid colour the blend of
      the half of the domain the value falls in. */
  function ColorForValue(v: Num, lo: real, hi: real, p: Palette): (c: Color)
    requires lo < hi
    ensures c.Missing? <==> v.None?
    ensures v == Some(lo) ==> c == Fill(p.minColor)
    ensures v == Some(hi) ==> c == Fill(p.maxColor)
    ensures p.useMid && v == Some((lo + hi) / 2.0) ==> c == Fill(p.midColor)
    ensures !p.useMid && v.Some? && lo <= v.value <= hi ==> Between(c.rgb, p.minColor, p.maxColor)
    ensures p.useMid && v.Some? && lo <= v.value <= (lo + hi) / 2.0 ==> Between(c.rgb, p.minColor, p.midColor)
    ensures p.useMid && v.Some? && (lo + hi) / 2.0 < v.value <= hi ==> Between(c.rgb, p.midColor, p.maxColor)
  {
    match v
    case None => Missing
    case Some(x) =>
      if p.useMid then
        var mid := (lo + hi) / 2.0;
        if x <= mid then Fill(Segment(x, lo, mid, p.minColor, p.midColor))
        else Fill(Segment(x, mid, hi, p.midColor, p.maxColor))
      else Fill(Segment(x, lo, hi, p.minColor, p.maxColor))
  }

  /** Inside the domain every channel of a decoded palette's colour is a byte. */
  lemma ColorInsideDomainIsByte(x: real, lo: real, hi: real, p: Palette)
    requires lo < hi && lo <= x <= hi
    requires IsByteRgb(p.minColor) && IsByteRgb(p.midColor) && IsByteRgb(p.maxColor)
    ensures ColorForValue(Some(x), lo, hi, p).Fill?
    ensures IsByteRgb(ColorForValue(Some(x), lo, hi, p).rgb)
  {
    var c := ColorForValue(Some(x), lo, hi, p).rgb;
    if !p.useMid {
      BetweenBytes(c, p.minColor, p.maxColor);
    } else if x <= (lo + hi) / 2.0 {
      BetweenBytes(c, p.minColor, p.midColor);
    } else {
      BetweenBytes(c, p.midColor, p.maxColor);
    }
  }
}

=== FILE: heatmap_data.dfy ===
/** The data half of the heatmap's `updateAsync`: validation of the query
    shape, the distinct X and Y categories in first-occurrence order, the
    cell lookup table keyed by `x|y`, and the value domain with its guard. */
module HeatmapData {
  import opened Common

  // ---------------------------------------------------------------------------
  // Validation ladder
  // ---------------------------------------------------------------------------

  datatype HeatmapError = TooFewDimensions | WrongMeasureCount | NoData

  function Rank(e: HeatmapError): nat
  {
    match e
    case TooFewDimensions => 0
    case WrongMeasureCount => 1
    case NoData => 2
  }

  predicate Fails(e: HeatmapError, dims: nat, measures: nat, rows: nat)
  {
    match e
    case TooFewDimensions => dims < 2
    case WrongMeasureCount => measures != 1
    case NoData => rows == 0
  }

  /** The first failing check, or None when the query has the shape the heatmap draws. */
  function Validate(dims: nat, measures: nat, rows: nat): (r: Option<HeatmapError>)
    ensures r.Some? ==> Fails(r.value, dims, measures, rows)
    ensures r.Some? ==> forall e :: Rank(e) < Rank(r.value) ==> !Fails(e, dims, measures, rows)
    ensures r.None? ==> forall e :: !Fails(e, dims, measures, rows)
    ensures r.None? <==> dims >= 2 && measures == 1 && rows >= 1
  {
    if dims < 2 then Some(TooFewDimensions)
    else if measures != 1 then Some(WrongMeasureCount)
    else if rows == 0 then Some(NoData)
    else None
  }

  function Message(e: HeatmapError): string
  {
    match e
    case TooFewDimensions => "This visualization requires at least two dimensions (one for X-axis, one for Y-axis)."
    case WrongMeasureCount => "This visualization requires exactly one measure (for cell values)."
    case NoData => "No data returned for this query."
  }

  // ---------------------------------------------------------------------------
  // Rows and categories
  // ---------------------------------------------------------------------------

  /** A row read through the two chosen dimensions and the measure, the
      latter after `parseFloat`. */
  datatype Row = Row(x: string, y: string, value: Num)

  function XsOf(rows: seq<Row>): (xs: seq<string>)
    ensures |xs| == |rows|
    ensures forall i :: 0 <= i < |rows| ==> xs[i] == rows[i].x
  {
    seq(|rows|, i requires 0 <= i < |rows| => rows[i].x)
  }

  function YsOf(rows: seq<Row>): (ys: seq<string>)
    ensures |ys| == |rows|
    ensures forall i :: 0 <= i < |rows| ==> ys[i] == rows[i].y
  {
    seq(|rows|, i requires 0 <= i < |rows| => rows[i].y)
  }

  predicate NoDuplicates<T(==)>(s: seq<T>)
  {
    forall i, j :: 0 <= i < j < |s| ==> s[i] != s[j]
  }

  /** The position of the first occurrence of `v`. */
  function FirstIndex<T(==)>(s: seq<T>, v: T): (k: nat)
    requires v in s
    ensures k < |s| && s[k] == v && v !in s[..k]
  {
    if s[0] == v then 0 else 1 + FirstIndex(s[1..], v)
  }

  /** Appending leaves the first occurrence of an existing element alone. */
  lemma {:induction false} FirstIndexSnoc<T>(s: seq<T>, a: T, v: T)
    requires v in s
    ensures FirstIndex(s + [a], v) == FirstIndex(s, v)
  {
    if s[0] != v {
      assert (s + [a])[1..] == s[1..] + [a];
      FirstIndexSnoc(s[1..], a, v);
    }
  }

  /** `Array.from(new Set(values))`: each value once, and exactly the values
      that occur. */
  function Distinct(s: seq<string>): (d: seq<string>)
    ensures NoDuplicates(d)
    ensures forall v :: v in d <==> v in s
    decreases |s|
  {
    if |s| == 0 then []
    else
      var init, last := s[..|s| - 1], s[|s| - 1];
      var d := Distinct(init);
      if last in d then d else d + [last]
  }

  /** The distinct values keep the order of their first occurrence. */
  lemma {:induction false} DistinctFirstOccurrence(s: seq<string>)
    ensures forall i, j :: 0 <= i < j < |Distinct(s)| ==>
      FirstIndex(s, Distinct(s)[i]) < FirstIndex(s, Distinct(s)[j])
    decreases |s|
  {
    if |s| > 0 {
      var init, last := s[..|s| - 1], s[|s| - 1];
      assert s == init + [last];
      var d := Distinct(init);
      DistinctFirstOccurrence(init);
      forall v | v in init ensures FirstIndex(s, v) == FirstIndex(init, v)
      {
        FirstIndexSnoc(init, last, v);
      }
      if last in d {
        assert Distinct(s) == d;
        forall i, j | 0 <= i < j < |d| ensures FirstIndex(s, d[i]) < FirstIndex(s, d[j])
        {
          assert d[i] in init && d[j] in init;
          assert FirstIndex(init, d[i]) < FirstIndex(init, d[j]);
        }
      } else {
        var e := d + [last];
        assert Distinct(s) == e;
        assert FirstIndex(s, last) == |init|;
        forall i, j | 0 <= i < j < |e| ensures FirstIndex(s, e[i]) < FirstIndex(s, e[j])
        {
          assert e[i] == d[i] && d[i] in init;
          if j == |d| {
            assert FirstIndex(s, e[i]) == FirstIndex(init, d[i]) < |init|;
          } else {
            assert e[j] == d[j] && d[j] in init;
            assert FirstIndex(init, d[i]) < FirstIndex(init, d[j]);
          }
        }
      }
    }
  }

  lemma DistinctExample()
    ensures Distinct(["B", "A", "B"]) == ["B", "A"]
  {
    assert Distinct(["B"]) == ["B"];
    assert ["B", "A"][..1] == ["B"];
    assert Distinct(["B", "A"]) == ["B", "A"];
    assert ["B", "A", "B"][..2] == ["B", "A"];
  }

  // ---------------------------------------------------------------------------
  // Cell table
  // ---------------------------------------------------------------------------

  /** The composite lookup key `${x}|${y}`. */
  function Key(x: string, y: string): string
  {
    x + "|" + y
  }

  function RowKey(r: Row): string
  {
    Key(r.x, r.y)
  }

  /** Row `i` stores a value and no later row stores one under the same key. */
  ghost predicate LastWriter(rows: seq<Row>, i: int)
    requires 0 <= i < |rows|
  {
    && rows[i].value.Some?
    && forall j :: i < j < |rows| ==> !(rows[j].value.Some? && RowKey(rows[j]) == RowKey(rows[i]))
  }

  /** `cellDataMap`: every non-NaN value stored under its row's key, later
      rows overwriting earlier ones. Its keys are exactly the keys of the
      rows with a non-NaN value. */
  function CellMap(rows: seq<Row>): (m: map<string, real>)
    ensures forall k :: k in m <==> exists i :: 0 <= i < |rows| && rows[i].value.Some? && RowKey(rows[i]) == k
    decreases |rows|
  {
    if |rows| == 0 then map[]
    else
      var init, last := rows[..|rows| - 1], rows[|rows| - 1];
      var m := CellMap(init);
      assert forall i :: 0 <= i < |init| ==> rows[i] == init[i];
      match last.value
      case None => m
      case Some(v) => m[RowKey(last) := v]
  }

  /** The value stored under a key is the one of the last row with that key
      and a non-NaN value. */
  lemma {:induction false} LaterRowsWin(rows: seq<Row>, i: int)
    requires 0 <= i < |rows| && LastWriter(rows, i)
    ensures RowKey(rows[i]) in CellMap(rows)
    ensures CellMap(rows)[RowKey(rows[i])] == rows[i].value.value
  {
    var init, last := rows[..|rows| - 1], rows[|rows| - 1];
    if i < |rows| - 1 {
      assert init[i] == rows[i];
      assert LastWriter(init, i) by {
        forall j | i < j < |init|
          ensures !(init[j].value.Some? && RowKey(init[j]) == RowKey(init[i]))
        {
          assert init[j] == rows[j];
        }
      }
      LaterRowsWin(init, i);
      assert !(last.value.Some? && RowKey(last) == RowKey(rows[i]));
    }
  }

  function Lookup(m: map<string, real>, k: string): (v: Num)
    ensures v.Some? <==> k in m
    ensures k in m ==> v.value == m[k]
  {
    if k in m then Some(m[k]) else None
  }

  /** The key is not injective: categories containing `|` can collide, so
      two different cells read the same stored value. */
  lemma KeyCollision()
    ensures ("a|b", "c") != ("a", "b|c")
    ensures Key("a|b", "c") == Key("a", "b|c")
  {
  }

  // ---------------------------------------------------------------------------
  // Value domain
  // ---------------------------------------------------------------------------

  predicate Finite(r: Row)
  {
    r.value.Some?
  }

  /** The smallest and largest non-NaN values over all rows, overwritten ones
      included; None when every value is NaN. */
  function Extent(rows: seq<Row>): (e: Option<(real, real)>)
    ensures e.None? <==> forall i :: 0 <= i < |rows| ==> !Finite(rows[i])
    ensures e.Some? ==> forall i :: 0 <= i < |rows| && Finite(rows[i]) ==>
      e.value.0 <= rows[i].value.value <= e.value.1
    ensures e.Some? ==> exists i :: 0 <= i < |rows| && rows[i].value == Some(e.value.0)
    ensures e.Some? ==> exists i :: 0 <= i < |rows| && rows[i].value == Some(e.value.1)
    decreases |rows|
  {
    if |rows| == 0 then None
    else
      var init, last := rows[..|rows| - 1], rows[|rows| - 1];
      var e := Extent(init);
      assert forall i :: 0 <= i < |init| ==> rows[i] == init[i];
      match last.value
      case None => e
      case Some(v) =>
        match e
        case None => Some((v, v))
        case Some((lo, hi)) => Some((if v < lo then v else lo, if v > hi then v else hi))
  }

  datatype Domain = Domain(lo: real, hi: real)

  /** Two rows hold different non-NaN values. */
  ghost predicate Spread(rows: seq<Row>)
  {
    exists i, j :: 0 <= i < |rows| && 0 <= j < |rows| && Finite(rows[i]) && Finite(rows[j])
      && rows[i].value.value < rows[j].value.value
  }

  /** The colour domain: the extent of the values, or [0, 1] when there are
      no values or they are all equal. Either way the domain is not empty. */
  function ValueDomain(rows: seq<Row>): (d: Domain)
    ensures d.lo < d.hi
    ensures !Spread(rows) ==> d == Domain(0.0, 1.0)
    ensures Spread(rows) ==> forall i :: 0 <= i < |rows| && Finite(rows[i]) ==> d.lo <= rows[i].value.value <= d.hi
    ensures Spread(rows) ==> exists i :: 0 <= i < |rows| && rows[i].value == Some(d.lo)
    ensures Spread(rows) ==> exists i :: 0 <= i < |rows| && rows[i].value == Some(d.hi)
  {
    match Extent(rows)
    case None => Domain(0.0, 1.0)
    case Some((lo, hi)) =>
      if lo == hi then Domain(0.0, 1.0)
      else
        assert lo < hi;
        Domain(lo, hi)
  }
}

=== FILE: radar.dfy ===
/** The engine inside the radar chart's `updateAsync`: validation of the query
    shape, one data point per measure, the domain maximum, the linear radial
    scale, the grid rings and tick labels, the quadrant-dependent label
    placement, and the order in which the primitives are painted. */
module Radar {
  import opened Common

  // ---------------------------------------------------------------------------
  // Validation ladder
  // ---------------------------------------------------------------------------

  datatype RadarError = NoDimension | NoMeasure | NoData | TooManyRows

  function Rank(e: RadarError): nat
  {
    match e
    case NoDimension => 0
    case NoMeasure => 1
    case NoData => 2
    case TooManyRows => 3
  }

  predicate Fails(e: RadarError, dims: nat, measures: nat, rows: nat)
  {
    match e
    case NoDimension => dims == 0
    case NoMeasure => measures < 1
    case NoData => rows == 0
    case TooManyRows => rows > 1
  }

  /** The first failing check, or None when the query has the shape the chart draws. */
  function Validate(dims: nat, measures: nat, rows: nat): (r: Option<RadarError>)
    ensures r.Some? ==> Fails(r.value, dims, measures, rows)
    ensures r.Some? ==> forall e :: Rank(e) < Rank(r.value) ==> !Fails(e, dims, measures, rows)
    ensures r.None? ==> forall e :: !Fails(e, dims, measures, rows)
    ensures r.None? <==> dims >= 1 && measures >= 1 && rows == 1
  {
    if dims == 0 then Some(NoDimension)
    else if measures < 1 then Some(NoMeasure)
    else if rows == 0 then Some(NoData)
    else if rows > 1 then Some(TooManyRows)
    else None
  }

  function Message(e: RadarError): string
  {
    match e
    case NoDimension => "This visualization requires at least one dimension (for the item name)."
    case NoMeasure => "This visualization requires at least one measure (for performance metrics)."
    case NoData => "No data returned for this query."
    case TooManyRows => "This Radar Gauge visualization is designed for a single item. Please ensure your query returns only one row of data (e.g., by filtering to a single dimension value)."
  }

  // ---------------------------------------------------------------------------
  // Data points
  // ---------------------------------------------------------------------------

  /** A measure field with its `label_short` and `label`; an absent label is the empty (falsy) string. */
  datatype Measure = Measure(name: string, shortLabel: string, fullLabel: string)

  datatype DataPoint = DataPoint(axis: string, value: Num)

  /** `label_short || label || name`: the first non-empty candidate, falling
      back to the name. */
  function AxisLabel(m: Measure): (s: string)
    ensures s == m.shortLabel || s == m.fullLabel || s == m.name
    ensures m.shortLabel != "" ==> s == m.shortLabel
    ensures s == m.name ==> m.shortLabel == m.name || m.shortLabel == ""
    ensures s == "" ==> m.shortLabel == "" && m.fullLabel == "" && m.name == ""
    ensures m.shortLabel == "" && m.fullLabel != "" ==> s == m.fullLabel
    ensures m.shortLabel == "" && m.fullLabel == "" ==> s == m.name
  {
    if m.shortLabel != "" then m.shortLabel
    else if m.fullLabel != "" then m.fullLabel
    else m.name
  }

  /** `measures.map(...)`: one point per measure, in measure order. */
  function RadarData(ms: seq<Measure>, row: map<string, Num>): (ds: seq<DataPoint>)
    ensures |ds| == |ms|
    ensures forall i :: 0 <= i < |ms| ==>
      ds[i].axis == AxisLabel(ms[i]) && ds[i].value == CellValue(row, ms[i].name)
  {
    if |ms| == 0 then []
    else [DataPoint(AxisLabel(ms[0]), CellValue(row, ms[0].name))] + RadarData(ms[1..], row)
  }

  function Values(ds: seq<DataPoint>): (vs: seq<Num>)
    ensures |vs| == |ds|
    ensures forall i :: 0 <= i < |ds| ==> vs[i] == ds[i].value
  {
    seq(|ds|, i requires 0 <= i < |ds| => ds[i].value)
  }

  // ---------------------------------------------------------------------------
  // Domain maximum and radial scale
  // ---------------------------------------------------------------------------

  /** The `forEach` that keeps the larger of `acc` and each value; NaN never
      passes the `>` test. */
  function RunningMax(vs: seq<Num>, acc: real): (m: real)
    ensures m >= acc
    ensures forall i :: 0 <= i < |vs| && vs[i].Some? ==> vs[i].value <= m
    ensures m == acc || exists i :: 0 <= i < |vs| && vs[i] == Some(m)
    decreases |vs|
  {
    if |vs| == 0 then acc
    else
      var next := if vs[0].Some? && vs[0].value > acc then vs[0].value else acc;
      var m := RunningMax(vs[1..], next);
      assert forall i :: 1 <= i < |vs| ==> vs[i] == vs[1..][i - 1];
      m
  }

  /** The automatic maximum: 10% above the largest value (and above 0),
      replaced by 1 when that is 0. */
  function AutoMax(vs: seq<Num>): (m: real)
    ensures m > 0.0
    ensures forall i :: 0 <= i < |vs| && vs[i].Some? ==> 1.1 * vs[i].value <= m
    ensures || (m == 1.0 && forall i :: 0 <= i < |vs| && vs[i].Some? ==> vs[i].value <= 0.0)
            || exists i :: 0 <= i < |vs| && vs[i].Some? && vs[i].value > 0.0 && m == 1.1 * vs[i].value
  {
    var padded := RunningMax(vs, 0.0) * 1.1;
    if padded == 0.0 then 1.0 else padded
  }

  lemma AutoMaxExample()
    ensures AutoMax([Some(10.0), Some(20.0), Some(5.0), Some(15.0)]) == 22.0
  {
    var vs := [Some(10.0), Some(20.0), Some(5.0), Some(15.0)];
    assert RunningMax(vs[3..], 20.0) == 20.0;
    assert RunningMax(vs[2..], 20.0) == 20.0;
    assert RunningMax(vs[1..], 10.0) == 20.0;
  }

  /** The maximum the chart scales to: the configured one when it is a number
      (null and NaN select the automatic one). Only a configured 0 yields 0. */
  function ResolveMax(fixed: Option<real>, vs: seq<Num>): (m: real)
    ensures fixed.Some? ==> m == fixed.value
    ensures fixed.None? ==> m == AutoMax(vs) && m > 0.0
    ensures m == 0.0 <==> fixed == Some(0.0)
  {
    match fixed
    case Some(x) => x
    case None => AutoMax(vs)
  }

  /** `scaleRadius`: the linear map sending 0 to the centre and the domain
      maximum to the outer radius. */
  function ScaleRadius(v: real, maxValue: real, radius: real): real
    requires maxValue != 0.0
  {
    (v / maxValue) * radius
  }

  lemma ScaleRadiusEnds(maxValue: real, radius: real)
    requires maxValue != 0.0
    ensures ScaleRadius(0.0, maxValue, radius) == 0.0
    ensures ScaleRadius(maxValue, maxValue, radius) == radius
  {
    assert maxValue / maxValue == 1.0;
  }

  lemma ScaleRadiusAdditive(u: real, v: real, maxValue: real, radius: real)
    requires maxValue != 0.0
    ensures ScaleRadius(u + v, maxValue, radius) == ScaleRadius(u, maxValue, radius) + ScaleRadius(v, maxValue, radius)
  {
    assert (u + v) / maxValue == u / maxValue + v / maxValue;
  }

  lemma ScaleRadiusMonotone(u: real, v: real, maxValue: real, radius: real)
    requires maxValue > 0.0 && radius > 0.0 && u < v
    ensures ScaleRadius(u, maxValue, radius) < ScaleRadius(v, maxValue, radius)
  {
    var du, dv := u / maxValue, v / maxValue;
    assert du * maxValue == u && dv * maxValue == v;
    assert du < dv;
    assert (dv - du) * radius > 0.0;
  }

  function ScaleNum(v: Num, maxValue: real, radius: real): (r: Num)
    requires maxValue != 0.0
  {
    match v
    case None => None
    case Some(x) => Some(ScaleRadius(x, maxValue, radius))
  }

  // ---------------------------------------------------------------------------
  // Grid rings and tick labels
  // ---------------------------------------------------------------------------

  /** The radius of grid ring `k` (1-based), `(radius / levels) * k`. */
  function RingRadius(k: nat, levels: nat, radius: real): real
    requires levels > 0
  {
    (radius / levels as real) * k as real
  }

  /** The rings split the radius evenly: they grow strictly and the last is
      the outer radius. */
  lemma RingsEvenlySpaced(k: nat, levels: nat, radius: real)
    requires 0 < k < levels && radius > 0.0
    ensures RingRadius(k, levels, radius) < RingRadius(k + 1, levels, radius)
    ensures RingRadius(k + 1, levels, radius) - RingRadius(k, levels, radius) == radius / levels as real
    ensures RingRadius(levels, levels, radius) == radius
  {
    var step := radius / levels as real;
    assert step * levels as real == radius;
    assert step > 0.0;
  }

  /** The radius of the tick label for level `j`,
      `scaleRadius(maxValue / levels * j)`. */
  function TickRadius(j: nat, levels: nat, maxValue: real, radius: real): real
    requires levels > 0 && maxValue != 0.0
  {
    ScaleRadius(maxValue / levels as real * j as real, maxValue, radius)
  }

  /** Each tick label sits on its grid ring, whatever the domain maximum. */
  lemma TickOnRing(j: nat, levels: nat, maxValue: real, radius: real)
    requires levels > 0 && maxValue != 0.0
    ensures TickRadius(j, levels, maxValue, radius) == RingRadius(j, levels, radius)
  {
    var L := levels as real;
    var J := j as real;
    var x := maxValue / L * J;
    assert x / maxValue == J / L by {
      assert (maxValue / L) / maxValue == 1.0 / L;
    }
    assert (J / L) * radius == (radius / L) * J;
  }

  // ---------------------------------------------------------------------------
  // Angles and label placement
  // ---------------------------------------------------------------------------

  /** Slot `i` of `n`: `angleSlice * i - π/2`, starting at the top. */
  function SlotAngle(i: nat, n: nat): real
    requires n > 0
  {
    (Pi * 2.0 / n as real) * i as real - Pi / 2.0
  }

  /** Slot 0 points straight up, consecutive slots are one slice apart, and
      all slots lie in [-π/2, 3π/2). */
  lemma SlotAngles(i: nat, n: nat)
    requires i < n
    ensures SlotAngle(0, n) == -Pi / 2.0
    ensures i + 1 < n ==> SlotAngle(i + 1, n) - SlotAngle(i, n) == TwoPi / n as real
    ensures -Pi / 2.0 <= SlotAngle(i, n) < 3.0 * Pi / 2.0
  {
    var slice := Pi * 2.0 / n as real;
    assert slice * n as real == TwoPi;
    assert slice > 0.0;
    assert slice * i as real < slice * n as real;
  }

  const Tolerance: real := 0.001

  datatype Baseline = Middle | Hanging | Auto

  function Abs(x: real): real
  {
    if x < 0.0 then -x else x
  }

  /** `text-anchor` from the cosine of the label's angle: a three-way split
      of the real line. */
  function AnchorFor(c: real): (a: Anchor)
    ensures a == Anchor.Middle <==> -Tolerance < c < Tolerance
    ensures a == Start <==> c >= Tolerance
    ensures a == End <==> c <= -Tolerance
  {
    if Abs(c) < Tolerance then Anchor.Middle
    else if c > 0.0 then Start
    else End
  }

  /** `dominant-baseline` from the sine of the label's angle. */
  function BaselineFor(s: real): (b: Baseline)
    ensures b == Baseline.Middle <==> -Tolerance < s < Tolerance
    ensures b == Hanging <==> s >= Tolerance
    ensures b == Auto <==> s <= -Tolerance
  {
    if Abs(s) < Tolerance then Baseline.Middle
    else if s > 0.0 then Hanging
    else Auto
  }

  function MirrorAnchor(a: Anchor): Anchor
  {
    match a
    case Middle => Anchor.Middle
    case Start => End
    case End => Start
  }

  function MirrorBaseline(b: Baseline): Baseline
  {
    match b
    case Middle => Baseline.Middle
    case Hanging => Auto
    case Auto => Hanging
  }

  /** Labels on opposite sides of the centre get mirrored placements. */
  lemma PlacementMirrors(c: real, s: real)
    ensures AnchorFor(-c) == MirrorAnchor(AnchorFor(c))
    ensures BaselineFor(-s) == MirrorBaseline(BaselineFor(s))
  {
  }

  // ---------------------------------------------------------------------------
  // Scene
  // ---------------------------------------------------------------------------

  /** Distance between the grid edge and the axis labels. */
  const LabelGap: real := 20.0

  /** The gap between the title baseline and the top of the chart. */
  const TitleGap: real := 50.0

  /** `cos` and `sin`, left to the caller. */
  datatype Trig = Trig(cos: real -> real, sin: real -> real)

  /** A point in polar form about the chart centre; a NaN radius leaves it undefined. */
  datatype Polar = Polar(r: Num, theta: real)

  datatype Primitive =
    | Ring(radius: real)
    | AxisLine(tip: Polar)
    | AxisText(at: Polar, anchor: Anchor, baseline: Baseline, text: string)
    | TickText(at: Polar, anchor: Anchor, baseline: Baseline, value: real)
    | Area(vertices: seq<Polar>)
    | Dot(at: Polar)

  /** The chart is centred horizontally, its radius is 70% of half the
      smaller side, and its top edge sits 50 px below the title baseline. */
  function RadarLayout(width: real, height: real): (L: Layout)
    ensures L.radius == Min(width, height) / 2.0 * 0.7
    ensures L.centerX == width / 2.0
    ensures L.centerY - L.radius == TitleY + TitleGap
    ensures width >= 0.0 && height >= 0.0 ==> 0.0 <= L.radius <= width / 2.0 && L.radius <= height / 2.0
  {
    var radius := Min(width, height) / 2.0 * 0.7;
    Layout(width / 2.0, TitleY + TitleGap + radius, radius)
  }

  datatype RadarConfig = RadarConfig(levels: nat, maxValue: Option<real>, showValueLabels: bool)

  function Rings(levels: nat, radius: real): (ps: seq<Primitive>)
    ensures |ps| == levels
  {
    seq(levels, k requires 0 <= k < levels => Ring(RingRadius(k + 1, levels, radius)))
  }

  function Ticks(angle: real, levels: nat, maxValue: real, radius: real, trig: Trig): (ps: seq<Primitive>)
    requires maxValue != 0.0
    ensures |ps| == levels
  {
    seq(levels, j requires 0 <= j < levels =>
      TickText(Polar(Some(TickRadius(j + 1, levels, maxValue, radius)), angle),
               AnchorFor(trig.cos(angle)), BaselineFor(trig.sin(angle)),
               maxValue / levels as real * (j + 1) as real))
  }

  /** Number of primitives each axis contributes. */
  function BlockSize(cfg: RadarConfig): nat
  {
    2 + if cfg.showValueLabels then cfg.levels else 0
  }

  /** Axis `i`: its line, its label, then its tick labels when enabled. */
  function AxisBlock(ds: seq<DataPoint>, i: nat, cfg: RadarConfig, maxValue: real, radius: real, trig: Trig): (ps: seq<Primitive>)
    requires i < |ds| && maxValue != 0.0
    ensures |ps| == BlockSize(cfg)
  {
    var a := SlotAngle(i, |ds|);
    [AxisLine(Polar(Some(radius), a)),
     AxisText(Polar(Some(radius + LabelGap), a), AnchorFor(trig.cos(a)), BaselineFor(trig.sin(a)), ds[i].axis)]
    + (if cfg.showValueLabels then Ticks(a, cfg.levels, maxValue, radius, trig) else [])
  }

  /** The blocks of axes `0 .. m-1`, in order. */
  function Axes(ds: seq<DataPoint>, m: nat, cfg: RadarConfig, maxValue: real, radius: real, trig: Trig): (ps: seq<Primitive>)
    requires m <= |ds| && maxValue != 0.0
  {
    if m == 0 then []
    else Axes(ds, m - 1, cfg, maxValue, radius, trig) + AxisBlock(ds, m - 1, cfg, maxValue, radius, trig)
  }

  lemma {:induction false} AxesLength(ds: seq<DataPoint>, m: nat, cfg: RadarConfig, maxValue: real, radius: real, trig: Trig)
    requires m <= |ds| && maxValue != 0.0
    ensures |Axes(ds, m, cfg, maxValue, radius, trig)| == m * BlockSize(cfg)
  {
    if m > 0 {
      AxesLength(ds, m - 1, cfg, maxValue, radius, trig);
      var B := BlockSize(cfg);
      assert m * B == (m - 1) * B + B;
    }
  }

  /** The axes occupy consecutive blocks: primitive `t` of axis `i` is at
      `i * BlockSize + t`. */
  lemma {:induction false} AxesAt(ds: seq<DataPoint>, m: nat, i: nat, t: nat, cfg: RadarConfig, maxValue: real, radius: real, trig: Trig)
    requires m <= |ds| && maxValue != 0.0
    requires i < m && t < BlockSize(cfg)
    ensures i * BlockSize(cfg) + t < |Axes(ds, m, cfg, maxValue, radius, trig)|
    ensures Axes(ds, m, cfg, maxValue, radius, trig)[i * BlockSize(cfg) + t] == AxisBlock(ds, i, cfg, maxValue, radius, trig)[t]
  {
    var B := BlockSize(cfg);
    var prev := Axes(ds, m - 1, cfg, maxValue, radius, trig);
    var block := AxisBlock(ds, m - 1, cfg, maxValue, radius, trig);
    AxesLength(ds, m - 1, cfg, maxValue, radius, trig);
    assert Axes(ds, m, cfg, maxValue, radius, trig) == prev + block;
    if i < m - 1 {
      AxesAt(ds, m - 1, i, t, cfg, maxValue, radius, trig);
    } else {
      assert i * B == |prev|;
    }
  }

  /** The data polygon's vertices, in measure order. */
  function Vertices(ds: seq<DataPoint>, maxValue: real, radius: real): (vs: seq<Polar>)
    requires maxValue != 0.0
    ensures |vs| == |ds|
  {
    seq(|ds|, i requires 0 <= i < |ds| => Polar(ScaleNum(ds[i].value, maxValue, radius), SlotAngle(i, |ds|)))
  }

  function Dots(vs: seq<Polar>): (ps: seq<Primitive>)
    ensures |ps| == |vs|
  {
    seq(|vs|, i requires 0 <= i < |vs| => Dot(vs[i]))
  }

  /** Rings, then the axis blocks, then the polygon, then one dot per point. */
  function RadarScene(ds: seq<DataPoint>, cfg: RadarConfig, maxValue: real, radius: real, trig: Trig): (ps: seq<Primitive>)
    requires maxValue != 0.0
  {
    var vs := Vertices(ds, maxValue, radius);
    Rings(cfg.levels, radius) + Axes(ds, |ds|, cfg, maxValue, radius, trig) + [Area(vs)] + Dots(vs)
  }

  /** Index of the polygon: after the rings and every axis block. */
  function AreaIndex(n: nat, cfg: RadarConfig): nat
  {
    cfg.levels + n * BlockSize(cfg)
  }

  /** The scene has `levels` rings, a block per axis, one polygon and a dot
      per measure, and starts with the rings, innermost first. */
  lemma RadarSceneShape(ds: seq<DataPoint>, cfg: RadarConfig, maxValue: real, radius: real, trig: Trig)
    requires maxValue != 0.0
    ensures var ps := RadarScene(ds, cfg, maxValue, radius, trig);
      && |ps| == AreaIndex(|ds|, cfg) + 1 + |ds|
      && forall k :: 0 <= k < cfg.levels ==> ps[k] == Ring(RingRadius(k + 1, cfg.levels, radius))
  {
    AxesLength(ds, |ds|, cfg, maxValue, radius, trig);
  }

  /** Index where the block of axis `i` starts. */
  function BlockStart(cfg: RadarConfig, i: nat): nat
  {
    cfg.levels + i * BlockSize(cfg)
  }

  /** The axis blocks follow the rings directly. */
  lemma SceneAxesAt(ds: seq<DataPoint>, cfg: RadarConfig, maxValue: real, radius: real, trig: Trig, p: nat)
    requires maxValue != 0.0 && p < |Axes(ds, |ds|, cfg, maxValue, radius, trig)|
    ensures cfg.levels + p < |RadarScene(ds, cfg, maxValue, radius, trig)|
    ensures RadarScene(ds, cfg, maxValue, radius, trig)[cfg.levels + p] == Axes(ds, |ds|, cfg, maxValue, radius, trig)[p]
  {
    var rings := Rings(cfg.levels, radius);
    var axes := Axes(ds, |ds|, cfg, maxValue, radius, trig);
    var vs := Vertices(ds, maxValue, radius);
    assert RadarScene(ds, cfg, maxValue, radius, trig) == (rings + axes) + ([Area(vs)] + Dots(vs));
    assert (rings + axes)[cfg.levels + p] == axes[p];
  }

  /** Block `i` starts with axis `i`'s line and label, at slot angle `i`,
      followed (when enabled) by its tick labels, the `j`-th on ring `j`. */
  lemma RadarSceneAxis(ds: seq<DataPoint>, cfg: RadarConfig, maxValue: real, radius: real, trig: Trig, i: nat)
    requires maxValue != 0.0 && i < |ds|
    ensures var ps := RadarScene(ds, cfg, maxValue, radius, trig);
      var start, a := BlockStart(cfg, i), SlotAngle(i, |ds|);
      && start + 1 < |ps|
      && ps[start] == AxisLine(Polar(Some(radius), a))
      && ps[start + 1] == AxisText(Polar(Some(radius + LabelGap), a), AnchorFor(trig.cos(a)), BaselineFor(trig.sin(a)), ds[i].axis)
  {
    var B := BlockSize(cfg);
    var ps := RadarScene(ds, cfg, maxValue, radius, trig);
    var blk := AxisBlock(ds, i, cfg, maxValue, radius, trig);
    var start := BlockStart(cfg, i);
    assert start == cfg.levels + i * B;
    AxesAt(ds, |ds|, i, 0, cfg, maxValue, radius, trig);
    SceneAxesAt(ds, cfg, maxValue, radius, trig, i * B);
    assert ps[start] == blk[0];
    AxesAt(ds, |ds|, i, 1, cfg, maxValue, radius, trig);
    SceneAxesAt(ds, cfg, maxValue, radius, trig, i * B + 1);
    assert ps[start + 1] == blk[1];
  }

  /** Entry `1 + j` of axis `i`'s block is its `j`-th tick label: on grid
      ring `j` along the axis, placed with the axis's anchor and baseline,
      showing `maxValue / levels * j`. */
  lemma BlockTick(ds: seq<DataPoint>, i: nat, j: nat, cfg: RadarConfig, maxValue: real, radius: real, trig: Trig)
    requires maxValue != 0.0 && i < |ds|
    requires cfg.showValueLabels && 1 <= j <= cfg.levels
    ensures 1 + j < |AxisBlock(ds, i, cfg, maxValue, radius, trig)|
    ensures AxisBlock(ds, i, cfg, maxValue, radius, trig)[1 + j].TickText?
    ensures var tick, a := AxisBlock(ds, i, cfg, maxValue, radius, trig)[1 + j], SlotAngle(i, |ds|);
      && tick.at == Polar(Some(RingRadius(j, cfg.levels, radius)), a)
      && tick.anchor == AnchorFor(trig.cos(a))
      && tick.baseline == BaselineFor(trig.sin(a))
      && tick.value == maxValue / cfg.levels as real * j as real
  {
    var a := SlotAngle(i, |ds|);
    var ticks := Ticks(a, cfg.levels, maxValue, radius, trig);
    var blk := AxisBlock(ds, i, cfg, maxValue, radius, trig);
    assert blk[1 + j] == ticks[j - 1];
    assert ticks[j - 1].at == Polar(Some(TickRadius(j, cfg.levels, maxValue, radius)), a);
    TickOnRing(j, cfg.levels, maxValue, radius);
  }

  /** Offset of tick `j` of axis `i` within the axis pass. */
  function TickOffset(cfg: RadarConfig, i: nat, j: nat): (p: nat)
    requires cfg.showValueLabels && 1 <= j <= cfg.levels
    ensures 1 + j < BlockSize(cfg)
    ensures p == i * BlockSize(cfg) + (1 + j)
    ensures BlockStart(cfg, i) + 1 + j == cfg.levels + p
  {
    i * BlockSize(cfg) + (1 + j)
  }

  /** When value labels are shown, the `j`-th tick label of axis `i` follows
      its axis label, sits on grid ring `j` along the axis with the axis's
      anchor and baseline, and shows `maxValue / levels * j`. */
  lemma RadarSceneTick(ds: seq<DataPoint>, cfg: RadarConfig, maxValue: real, radius: real, trig: Trig, i: nat, j: nat)
    requires maxValue != 0.0 && i < |ds|
    requires cfg.showValueLabels && 1 <= j <= cfg.levels
    ensures var ps := RadarScene(ds, cfg, maxValue, radius, trig);
      var k := BlockStart(cfg, i) + 1 + j;
      && k < |ps|
      && ps[k].TickText?
      && ps[k].at == Polar(Some(RingRadius(j, cfg.levels, radius)), SlotAngle(i, |ds|))
      && ps[k].anchor == AnchorFor(trig.cos(SlotAngle(i, |ds|)))
      && ps[k].baseline == BaselineFor(trig.sin(SlotAngle(i, |ds|)))
      && ps[k].value == maxValue / cfg.levels as real * j as real
  {
    var t := 1 + j;
    var p := TickOffset(cfg, i, j);
    BlockTick(ds, i, j, cfg, maxValue, radius, trig);
    AxesAt(ds, |ds|, i, t, cfg, maxValue, radius, trig);
    SceneAxesAt(ds, cfg, maxValue, radius, trig, p);
  }

  /** After the axes comes one polygon with a vertex per measure, in measure
      order at its slot angle and scaled value, and then a dot on each vertex. */
  lemma RadarScenePolygon(ds: seq<DataPoint>, cfg: RadarConfig, maxValue: real, radius: real, trig: Trig)
    requires maxValue != 0.0
    ensures var ps := RadarScene(ds, cfg, maxValue, radius, trig);
      var k := AreaIndex(|ds|, cfg);
      && k + |ds| < |ps|
      && ps[k].Area?
      && |ps[k].vertices| == |ds|
      && (forall i :: 0 <= i < |ds| ==>
            && ps[k].vertices[i] == Polar(ScaleNum(ds[i].value, maxValue, radius), SlotAngle(i, |ds|))
            && ps[k + 1 + i] == Dot(ps[k].vertices[i]))
  {
    AxesLength(ds, |ds|, cfg, maxValue, radius, trig);
    var ps := RadarScene(ds, cfg, maxValue, radius, trig);
    var front := Rings(cfg.levels, radius) + Axes(ds, |ds|, cfg, maxValue, radius, trig);
    var vs := Vertices(ds, maxValue, radius);
    assert ps == front + [Area(vs)] + Dots(vs);
    assert |front| == AreaIndex(|ds|, cfg);
  }

  // ---------------------------------------------------------------------------
  // One update call
  // ---------------------------------------------------------------------------

  datatype Query = Query(dimensionCount: nat, measures: seq<Measure>, rows: seq<map<string, Num>>)

  datatype Scene = Scene(layout: Layout, maxValue: real, primitives: seq<Primitive>)

  /** A configured maximum of 0 divides by zero in `scaleRadius`; the model
      excludes it (see `ResolveMax`). */
  function Update(q: Query, cfg: RadarConfig, width: real, height: real, trig: Trig): (r: Render<Scene>)
    requires cfg.maxValue != Some(0.0)
    ensures var check := Validate(q.dimensionCount, |q.measures|, |q.rows|);
      && (r.Failed? <==> check.Some?)
      && (r.Failed? ==> r.message == Message(check.value))
    ensures r.Drawn? ==> |q.rows| == 1 && |q.measures| >= 1
    ensures r.Drawn? && |q.rows| == 1 ==>
      var ds := RadarData(q.measures, q.rows[0]);
      && r.scene.layout == RadarLayout(width, height)
      && r.scene.maxValue == ResolveMax(cfg.maxValue, Values(ds))
      && r.scene.primitives == RadarScene(ds, cfg, r.scene.maxValue, r.scene.layout.radius, trig)
  {
    match Validate(q.dimensionCount, |q.measures|, |q.rows|)
    case Some(e) => Failed(Message(e))
    case None =>
      var ds := RadarData(q.measures, q.rows[0]);
      var L := RadarLayout(width, height);
      var maxValue := ResolveMax(cfg.maxValue, Values(ds));
      Drawn(Scene(L, maxValue, RadarScene(ds, cfg, maxValue, L.radius, trig)))
  }

  /** A measure whose cell is missing from the row reads 0, so its vertex of
      the data polygon sits at the centre. */
  lemma MissingMeasureAtCentre(q: Query, cfg: RadarConfig, width: real, height: real, trig: Trig, i: nat)
    requires cfg.maxValue != Some(0.0)
    requires Validate(q.dimensionCount, |q.measures|, |q.rows|).None?
    requires i < |q.measures| && q.measures[i].name !in q.rows[0]
    ensures var r := Update(q, cfg, width, height, trig);
      var k := AreaIndex(|q.measures|, cfg);
      && r.Drawn?
      && k < |r.scene.primitives|
      && r.scene.primitives[k].Area?
      && i < |r.scene.primitives[k].vertices|
      && r.scene.primitives[k].vertices[i] == Polar(Some(0.0), SlotAngle(i, |q.measures|))
  {
    var r := Update(q, cfg, width, height, trig);
    var ds := RadarData(q.measures, q.rows[0]);
    assert ds[i].value == Some(0.0);
    RadarScenePolygon(ds, cfg, r.scene.maxValue, r.scene.layout.radius, trig);
    ScaleRadiusEnds(r.scene.maxValue, r.scene.layout.radius);
  }

  /** A one-item query with four measures whose cells read 10, 20, 5 and 15. */
  ghost predicate FourMeasureItem(q: Query)
  {
    && q.dimensionCount >= 1 && |q.measures| == 4 && |q.rows| == 1
    && CellValue(q.rows[0], q.measures[0].name) == Some(10.0)
    && CellValue(q.rows[0], q.measures[1].name) == Some(20.0)
    && CellValue(q.rows[0], q.measures[2].name) == Some(5.0)
    && CellValue(q.rows[0], q.measures[3].name) == Some(15.0)
  }

  /** The polygon of a scene over four points with the given values. */
  lemma FourVertices(ds: seq<DataPoint>, cfg: RadarConfig, R: real, trig: Trig)
    requires Values(ds) == [Some(10.0), Some(20.0), Some(5.0), Some(15.0)]
    ensures var ps, k := RadarScene(ds, cfg, 22.0, R, trig), AreaIndex(4, cfg);
      && k < |ps|
      && ps[k].Area?
      && ps[k].vertices ==
           [Polar(Some(R * 10.0 / 22.0), SlotAngle(0, 4)), Polar(Some(R * 20.0 / 22.0), SlotAngle(1, 4)),
            Polar(Some(R * 5.0 / 22.0), SlotAngle(2, 4)), Polar(Some(R * 15.0 / 22.0), SlotAngle(3, 4))]
  {
    assert |ds| == 4;
    assert ds[0].value == Some(10.0) && ds[1].value == Some(20.0);
    assert ds[2].value == Some(5.0) && ds[3].value == Some(15.0);
    RadarScenePolygon(ds, cfg, 22.0, R, trig);
  }

  /** With values 10, 20, 5, 15 and no configured maximum the chart is
      drawn with the domain 22, and each polygon vertex lies at
      `radius · value / 22` along its axis. */
  lemma FourMeasureExample(q: Query, cfg: RadarConfig, width: real, height: real, trig: Trig)
    requires FourMeasureItem(q) && cfg.maxValue.None?
    ensures var r := Update(q, cfg, width, height, trig);
      var R, k := RadarLayout(width, height).radius, AreaIndex(4, cfg);
      && r.Drawn?
      && r.scene.maxValue == 22.0
      && k < |r.scene.primitives|
      && r.scene.primitives[k].Area?
      && r.scene.primitives[k].vertices ==
           [Polar(Some(R * 10.0 / 22.0), SlotAngle(0, 4)), Polar(Some(R * 20.0 / 22.0), SlotAngle(1, 4)),
            Polar(Some(R * 5.0 / 22.0), SlotAngle(2, 4)), Polar(Some(R * 15.0 / 22.0), SlotAngle(3, 4))]
  {
    var ds := RadarData(q.measures, q.rows[0]);
    assert Values(ds) == [Some(10.0), Some(20.0), Some(5.0), Some(15.0)];
    AutoMaxExample();
    FourVertices(ds, cfg, RadarLayout(width, height).radius, trig);
  }
}

=== FILE: radial_gauge.dfy ===
/** The engine inside the single-value semicircle gauge's `updateAsync`:
    validation of the query shape, clamping the value into the gauge range,
    mapping it to an angle on the upper half circle, the annulus-sector arc
    description, and the fixed paint order of the gauge's primitives. */
module RadialGauge {
  import opened Common

  // ---------------------------------------------------------------------------
  // Validation ladder
  // ---------------------------------------------------------------------------

  datatype GaugeError = NoFields | NoData | TooManyRows | WrongMeasureCount

  /** Position of each check in the ladder. */
  function Rank(e: GaugeError): nat
  {
    match e
    case NoFields => 0
    case NoData => 1
    case TooManyRows => 2
    case WrongMeasureCount => 3
  }

  /** The condition under which each check rejects the query. */
  predicate Fails(e: GaugeError, dims: nat, measures: nat, rows: nat)
  {
    match e
    case NoFields => dims == 0 && measures == 0
    case NoData => rows == 0
    case TooManyRows => rows > 1
    case WrongMeasureCount => measures != 1
  }

  /** The first failing check, or None when the query has the shape the gauge draws. */
  function Validate(dims: nat, measures: nat, rows: nat): (r: Option<GaugeError>)
    ensures r.Some? ==> Fails(r.value, dims, measures, rows)
    ensures r.Some? ==> forall e :: Rank(e) < Rank(r.value) ==> !Fails(e, dims, measures, rows)
    ensures r.None? ==> forall e :: !Fails(e, dims, measures, rows)
    ensures r.None? <==> measures == 1 && rows == 1
  {
    if dims == 0 && measures == 0 then Some(NoFields)
    else if rows == 0 then Some(NoData)
    else if rows > 1 then Some(TooManyRows)
    else if measures != 1 then Some(WrongMeasureCount)
    else None
  }

  function Message(e: GaugeError): string
  {
    match e
    case NoFields => "This visualization requires at least one measure or one dimension."
    case NoData => "No data returned for this query."
    case TooManyRows => "This Single-Value Gauge visualization is designed for a single value. Please ensure your query returns only one row of data (e.g., by filtering to a single dimension value)."
    case WrongMeasureCount => "This chart accepts exactly one measure."
  }

  // ---------------------------------------------------------------------------
  // Value and angle
  // ---------------------------------------------------------------------------

  /** `Math.max(lo, Math.min(hi, v))`; NaN stays NaN. */
  function Clamp(v: Num, lo: real, hi: real): (c: Num)
    ensures c.None? <==> v.None?
    ensures v.Some? && lo <= hi ==> lo <= c.value <= hi
    ensures v.Some? && lo <= v.value <= hi ==> c == v
    ensures v.Some? && lo <= hi && v.value > hi ==> c == Some(hi)
    ensures v.Some? && v.value < lo ==> c == Some(lo)
    ensures v.Some? && lo > hi ==> c == Some(lo)
  {
    match v
    case None => None
    case Some(x) => Some(Max(lo, Min(hi, x)))
  }

  /** The linear map of [lo, hi] onto the upper half circle [-Pi, 0]. */
  function ValueToAngle(v: real, lo: real, hi: real): real
    requires lo != hi
  {
    ((v - lo) / (hi - lo)) * Pi - Pi
  }

  lemma AngleEndpoints(lo: real, hi: real)
    requires lo != hi
    ensures ValueToAngle(lo, lo, hi) == -Pi
    ensures ValueToAngle(hi, lo, hi) == 0.0
  {
    assert (hi - lo) / (hi - lo) == 1.0;
  }

  lemma AngleStrictlyIncreasing(u: real, v: real, lo: real, hi: real)
    requires lo < hi && u < v
    ensures ValueToAngle(u, lo, hi) < ValueToAngle(v, lo, hi)
  {
    var d := hi - lo;
    var tu, tv := (u - lo) / d, (v - lo) / d;
    assert tu * d == u - lo && tv * d == v - lo;
    assert (tv - tu) * d == v - u;
    assert tu < tv;
  }

  lemma AngleInHalfCircle(v: real, lo: real, hi: real)
    requires lo < hi && lo <= v <= hi
    ensures -Pi <= ValueToAngle(v, lo, hi) <= 0.0
  {
    FractionInUnit(v - lo, hi - lo);
  }

  /** The angle of the fill arc's end and of the pointer. The value is clamped
      first, so values at or beyond either end of a proper range pin the
      angle to that end; with `lo == hi` the clamped value is `lo` and the
      map computes 0/0, i.e. NaN; with `lo > hi` it computes 0 and the angle
      is -Pi. */
  function FillAngle(v: Num, lo: real, hi: real): (a: Num)
    ensures v.Some? && lo < hi ==> a.Some? && -Pi <= a.value <= 0.0
    ensures v.Some? && lo < hi && lo <= v.value <= hi ==> a == Some(ValueToAngle(v.value, lo, hi))
    ensures v.Some? && lo < hi && v.value >= hi ==> a == Some(0.0)
    ensures v.Some? && lo < hi && v.value <= lo ==> a == Some(-Pi)
    ensures lo == hi ==> a.None?
    ensures v.Some? && lo > hi ==> a == Some(-Pi)
    ensures v.None? ==> a.None?
  {
    match Clamp(v, lo, hi)
    case None => None
    case Some(c) =>
      if lo == hi then None
      else
        assert lo > hi ==> c == lo && (c - lo) / (hi - lo) == 0.0;
        assert lo < hi ==> -Pi <= ValueToAngle(c, lo, hi) <= 0.0 by {
          if lo < hi { AngleInHalfCircle(c, lo, hi); }
        }
        assert lo < hi ==> ValueToAngle(lo, lo, hi) == -Pi && ValueToAngle(hi, lo, hi) == 0.0 by {
          if lo < hi { AngleEndpoints(lo, hi); }
        }
        Some(ValueToAngle(c, lo, hi))
  }

  lemma FillAngleExample()
    ensures FillAngle(Some(75.0), 0.0, 100.0) == Some(-Pi / 4.0)
  {
  }

  // ---------------------------------------------------------------------------
  // Angle normalisation and the arc path
  // ---------------------------------------------------------------------------

  /** `x` is a whole number of turns. */
  ghost predicate WholeTurns(x: real)
  {
    exists k: int :: Turns(k) == x
  }

  function Turns(k: int): real
  {
    k as real * TwoPi
  }

  /** `angle % (2π)` (JavaScript's remainder truncates toward zero), moved
      up by one turn when negative. */
  function NormalizeAngle(a: real): (r: real)
    ensures 0.0 <= r < TwoPi
    ensures WholeTurns(r - a)
    ensures 0.0 <= a < TwoPi ==> r == a
    ensures -TwoPi < a < 0.0 ==> r == a + TwoPi
  {
    var q := Trunc(a / TwoPi);
    var m := a - TwoPi * q as real;
    assert a >= 0.0 ==> 0.0 <= m < TwoPi;
    assert a < 0.0 ==> -TwoPi < m <= 0.0;
    if m < 0.0 then
      assert m + TwoPi - a == Turns(1 - q);
      m + TwoPi
    else
      assert m - a == Turns(-q);
      m
  }

  function NormalizeNum(a: Num): (r: Num)
  {
    match a
    case None => None
    case Some(x) => Some(NormalizeAngle(x))
  }

  /** A point in polar form about the gauge centre: the painter places it at
      (centerX + r·cos θ, centerY + r·sin θ); a NaN angle leaves it undefined. */
  datatype Polar = Polar(r: real, theta: Num)

  /** The `d` attribute of an annulus sector: move to the outer start, arc to
      the outer end, line to the inner start, arc to the inner end, close. */
  datatype ArcPath = ArcPath(
    outerStart: Polar, outerEnd: Polar,
    innerStart: Polar, innerEnd: Polar,
    largeArc: int, outerSweep: int, innerSweep: int)

  /** The sweep from `ns` to `ne` in the direction of increasing angle: for
      two normalised angles it lies in [0, 2π) and is their difference taken
      modulo one turn; NaN when the end angle is NaN. */
  function SweepAngle(ns: real, ne: Num): (d: Num)
    ensures ne.None? <==> d.None?
    ensures ne.Some? && 0.0 <= ns < TwoPi && 0.0 <= ne.value < TwoPi ==>
      && 0.0 <= d.value < TwoPi
      && (d.value == ne.value - ns || d.value == ne.value - ns + TwoPi)
  {
    match ne
    case None => None
    case Some(e) =>
      var diff := e - ns;
      Some(if diff < 0.0 then diff + TwoPi else diff)
  }

  /** `angleDiff > Math.PI ? 1 : 0`; a NaN comparison is false. */
  function LargeArcFlag(sweep: Num): (f: int)
    ensures f == 1 <==> sweep.Some? && sweep.value > Pi
    ensures f == 0 || f == 1
  {
    match sweep
    case None => 0
    case Some(d) => if d > Pi then 1 else 0
  }

  /** The outer arc and the inner arc traversed back, on the given radii,
      with opposite sweep directions. */
  ghost predicate ClosedAnnulus(p: ArcPath, innerR: real, outerR: real)
  {
    && p.outerStart.r == outerR && p.outerEnd.r == outerR
    && p.innerStart.r == innerR && p.innerEnd.r == innerR
    && p.innerStart.theta == p.outerEnd.theta
    && p.innerEnd.theta == p.outerStart.theta
    && p.outerSweep == 1 && p.innerSweep == 0
  }

  /** `getArcPath(start, end, innerR, outerR)`. */
  function ArcBetween(start: real, end: Num, innerR: real, outerR: real): (p: ArcPath)
    ensures ClosedAnnulus(p, innerR, outerR)
    ensures p.outerStart.theta == Some(NormalizeAngle(start))
    ensures p.outerEnd.theta == NormalizeNum(end)
    ensures p.largeArc == LargeArcFlag(SweepAngle(NormalizeAngle(start), NormalizeNum(end)))
  {
    var ns := NormalizeAngle(start);
    var ne := NormalizeNum(end);
    var flag := LargeArcFlag(SweepAngle(ns, ne));
    ArcPath(Polar(outerR, Some(ns)), Polar(outerR, ne),
            Polar(innerR, ne), Polar(innerR, Some(ns)),
            flag, 1, 0)
  }

  /** An arc starting at the left end of the gauge and ending anywhere on the
      upper half circle sweeps exactly `end + π` after normalisation, which
      is at most π, so its large-arc flag is 0; a NaN end also gives 0. */
  lemma ArcFromLeftEnd(end: Num, innerR: real, outerR: real)
    requires end.Some? ==> -Pi <= end.value <= 0.0
    ensures end.Some? ==> SweepAngle(NormalizeAngle(-Pi), NormalizeNum(end)) == Some(end.value + Pi)
    ensures ArcBetween(-Pi, end, innerR, outerR).largeArc == 0
    ensures NormalizeAngle(-Pi) == Pi
  {
    assert NormalizeAngle(-Pi) == Pi;
    if end.Some? {
      var e := end.value;
      if e < 0.0 {
        assert NormalizeAngle(e) == e + TwoPi;
      } else {
        assert NormalizeAngle(e) == 0.0;
      }
    }
  }

  // ---------------------------------------------------------------------------
  // Layout and scene
  // ---------------------------------------------------------------------------

  /** The gap between the title baseline and the top of the arc, the
      pointer's clearance from the inner edge, its full width, and the drop
      of the min/max labels below the centre. */
  const TitleGap: real := 25.0
  const PointerClearance: real := 5.0
  const PointerWidth: real := 8.0
  const LabelOffset: real := 10.0

  function GaugeLayout(width: real, height: real): Layout
  {
    var radius := Min(width, height) / 2.0 * 0.65;
    Layout(width / 2.0, TitleY + TitleGap + radius, radius)
  }

  datatype GaugeConfig = GaugeConfig(
    gaugeMin: real, gaugeMax: real, thickness: real,
    showMinMaxLabels: bool, minMaxLabelSize: real)

  datatype ArcLayer = Background | Fill
  datatype LabelRole = ValueLabel | MinLabel | MaxLabel

  /** A gauge primitive. Labels carry the number their text formats
      (`toFixed`, empty for NaN). */
  datatype Primitive =
    | Arc(layer: ArcLayer, path: ArcPath)
    | Pointer(tip: Polar, halfWidth: real)
    | Label(role: LabelRole, x: real, y: real, shows: Num)

  datatype Scene = Scene(layout: Layout, primitives: seq<Primitive>)

  /** The paint layer of each kind of primitive, bottom first. */
  function Layer(p: Primitive): nat
  {
    match p
    case Arc(Background, _) => 0
    case Arc(Fill, _) => 1
    case Pointer(_, _) => 2
    case Label(ValueLabel, _, _, _) => 3
    case Label(MinLabel, _, _, _) => 4
    case Label(MaxLabel, _, _, _) => 5
  }

  /** Everything drawn for one value. */
  function GaugeScene(cfg: GaugeConfig, v: Num, width: real, height: real): (s: Scene)
    ensures |s.primitives| == if cfg.showMinMaxLabels then 6 else 4
    ensures forall i :: 0 <= i < |s.primitives| ==> Layer(s.primitives[i]) == i
  {
    var L := GaugeLayout(width, height);
    var lo, hi := cfg.gaugeMin, cfg.gaugeMax;
    var shown := Clamp(v, lo, hi);
    var angle := FillAngle(v, lo, hi);
    var innerR := L.radius - cfg.thickness;
    var labelY := L.centerY + LabelOffset + cfg.minMaxLabelSize / 2.0;
    var body := [
      Arc(Background, ArcBetween(-Pi, Some(0.0), innerR, L.radius)),
      Arc(Fill, ArcBetween(-Pi, angle, innerR, L.radius)),
      Pointer(Polar(L.radius - cfg.thickness - PointerClearance, angle), PointerWidth / 2.0),
      Label(ValueLabel, L.centerX, L.centerY + L.radius * 0.4, shown)];
    var ends :=
      if cfg.showMinMaxLabels then
        [Label(MinLabel, L.centerX - L.radius, labelY, Some(lo)),
         Label(MaxLabel, L.centerX + L.radius, labelY, Some(hi))]
      else [];
    Scene(L, body + ends)
  }

  /** Both arcs of every gauge scene start at the left end and are minor
      arcs; the fill ends where the pointer points, inside [-π, 0] (or NaN). */
  lemma GaugeArcs(cfg: GaugeConfig, v: Num, width: real, height: real)
    ensures var ps := GaugeScene(cfg, v, width, height).primitives;
      && ps[0].path.outerStart.theta == Some(Pi)
      && ps[1].path.outerStart.theta == Some(Pi)
      && ps[0].path.outerEnd.theta == Some(0.0)
      && ps[0].path.largeArc == 0
      && ps[1].path.largeArc == 0
      && ps[1].path.outerEnd.theta == NormalizeNum(ps[2].tip.theta)
      && (ps[2].tip.theta.Some? ==> -Pi <= ps[2].tip.theta.value <= 0.0)
  {
    var a := FillAngle(v, cfg.gaugeMin, cfg.gaugeMax);
    var L := GaugeLayout(width, height);
    ArcFromLeftEnd(Some(0.0), L.radius - cfg.thickness, L.radius);
    ArcFromLeftEnd(a, L.radius - cfg.thickness, L.radius);
  }

  /** The gauge's layout: the radius is 65% of half the smaller side, so the
      gauge fits the box; it is centred horizontally and the top of the arc
      sits 25 px below the title baseline. Both arcs are annulus sectors
      between the inner radius `radius - thickness` and the radius. The
      pointer points at the fill angle, reaches 5 px short of the inner
      radius and is 8 px wide. The value
      label shows the clamped value, 0.4 radius below the centre; the min and
      max labels show the range ends one radius left and right of the
      centre, 10 px plus half their font size below it. */
  lemma GaugeGeometry(cfg: GaugeConfig, v: Num, width: real, height: real)
    ensures var s := GaugeScene(cfg, v, width, height);
      var L, ps := s.layout, s.primitives;
      && L.radius == Min(width, height) / 2.0 * 0.65
      && L.centerX == width / 2.0
      && L.centerY - L.radius == TitleY + TitleGap
      && (width >= 0.0 && height >= 0.0 ==> 0.0 <= L.radius <= width / 2.0 && L.radius <= height / 2.0)
      && ClosedAnnulus(ps[0].path, L.radius - cfg.thickness, L.radius)
      && ClosedAnnulus(ps[1].path, L.radius - cfg.thickness, L.radius)
      && ps[2].tip.theta == FillAngle(v, cfg.gaugeMin, cfg.gaugeMax)
      && ps[2].tip.r == L.radius - cfg.thickness - PointerClearance
      && ps[2].halfWidth == 4.0
      && ps[3].shows == Clamp(v, cfg.gaugeMin, cfg.gaugeMax)
      && ps[3].x == L.centerX && ps[3].y == L.centerY + 0.4 * L.radius
      && (cfg.showMinMaxLabels ==>
            && ps[4].shows == Some(cfg.gaugeMin) && ps[5].shows == Some(cfg.gaugeMax)
            && L.centerX - ps[4].x == L.radius
            && ps[5].x - L.centerX == L.radius
            && ps[4].y == ps[5].y == L.centerY + 10.0 + cfg.minMaxLabelSize / 2.0)
  {
  }

  /** With the default range 0..100, the value 75 fills three quarters of the
      half circle: fill and pointer end at -π/4. */
  lemma SeventyFiveOfHundred(width: real, height: real, thickness: real)
    ensures var ps := GaugeScene(GaugeConfig(0.0, 100.0, thickness, true, 14.0), Some(75.0), width, height).primitives;
      && ps[2].tip.theta == Some(-Pi / 4.0)
      && ps[1].path.outerEnd.theta == Some(-Pi / 4.0 + TwoPi)
      && ps[3].shows == Some(75.0)
  {
    FillAngleExample();
    assert NormalizeAngle(-Pi / 4.0) == -Pi / 4.0 + TwoPi;
  }

  // ---------------------------------------------------------------------------
  // One update call
  // ---------------------------------------------------------------------------

  /** The shape of the query response the engine reads: the number of
      dimensions, the measure names, and each row's parsed measure cells. */
  datatype Query = Query(dimensionCount: nat, measureNames: seq<string>, rows: seq<map<string, Num>>)

  function Update(q: Query, cfg: GaugeConfig, width: real, height: real): (r: Render<Scene>)
    ensures var check := Validate(q.dimensionCount, |q.measureNames|, |q.rows|);
      && (r.Failed? <==> check.Some?)
      && (r.Failed? ==> r.message == Message(check.value))
    ensures r.Drawn? ==> |q.rows| == 1 && |q.measureNames| == 1
    ensures r.Drawn? && |q.rows| == 1 && |q.measureNames| == 1 ==>
      r.scene == GaugeScene(cfg, CellValue(q.rows[0], q.measureNames[0]), width, height)
  {
    match Validate(q.dimensionCount, |q.measureNames|, |q.rows|)
    case Some(e) => Failed(Message(e))
    case None => Drawn(GaugeScene(cfg, CellValue(q.rows[0], q.measureNames[0]), width, height))
  }

  /** A row without a cell for the measure reads 0: the label shows 0 clamped
      into the range, and with a range starting at 0 the pointer rests at
      the left end. */
  lemma MissingMeasureReadsZero(q: Query, cfg: GaugeConfig, width: real, height: real)
    requires Validate(q.dimensionCount, |q.measureNames|, |q.rows|).None?
    requires q.measureNames[0] !in q.rows[0]
    ensures var r := Update(q, cfg, width, height);
      && r.Drawn?
      && r.scene.primitives[3].shows == Clamp(Some(0.0), cfg.gaugeMin, cfg.gaugeMax)
      && (cfg.gaugeMin <= 0.0 <= cfg.gaugeMax ==> r.scene.primitives[3].shows == Some(0.0))
      && (cfg.gaugeMin == 0.0 < cfg.gaugeMax ==> r.scene.primitives[2].tip.theta == Some(-Pi))
  {
    GaugeGeometry(cfg, Some(0.0), width, height);
  }
}
